=== FILE: README.md ===
# DeBERTa fine-tuning core, modelled in Dafny

This project models two pieces of pure logic from a GLUE fine-tuning code base for DeBERTa.

**The epoch loop of `Trainer.train` and `Trainer.val`.** The model records each epoch as the sequence of calls the loop makes on its collaborators:
- the forward passes;
- loss recording and the backward pass;
- gradient-norm clipping or measuring, and the learning-rate read;
- the optimizer, scheduler, zero-grad and progress-bar group;
- the pruner hooks;
- the gathered metric batch, the progress line, and `compute()`.

It also keeps the records the loop builds: `batch_loss`, `step_lr`, the progress lines and the mean loss.
- The accumulation gate, `(s+1) % w == 0` or the last step, decides which steps carry the update group.
- Losses are reals. The knowledge-distillation (KD) loss is composed from two opaque sub-loss functions over layer pairs. The pairs come from slicing both sides at `BEGIN_LAYER` and zipping them.

**`preprocess_data`** covers:
- the choice of the text columns;
- the three-way choice of `label_to_id`, including the check of the model's own lower-cased label names against the label list;
- the assignment of `label2id`/`id2label`;
- the label mapping in `generate_features`.

Python dictionaries are modelled as insertion-ordered item lists. Comprehension overwrites and dictionary inversion behave as they do in Python.

Files:
- `wrappers.dfy`: `Option` and `Result`.
- `pydict.dfy`: dictionaries, lookup, comprehension, inversion and equality.
- `pystr.dfy`: `str.lower()`, the string ordering and `sorted`.
- `accumulation.dfy`: the update and logging gates and their counts.
- `distill.dfy`: the KD loss composer.
- `trainer.dfy`: one training epoch and one validation epoch as event traces.
- `glue_process.dfy`: dataset preparation.

Three behaviours of the loop that the model keeps as the code has them:
- **KD loss functions.** The check that both KD sub-loss functions are set is an assertion inside the step loop, so it runs on every step and never before the first one. An epoch without steps therefore fails on the division at the end (`EmptyEpoch`), and the KD check never runs.
- **Gradient norm.** The gradient norm is clipped or measured on every step, before the update test, and not only on update steps.
- **Empty epoch.** An epoch without steps divides by zero when it averages the losses, before it reaches `compute()`.

The KD step is modelled as written: the hidden-state and attention sums start from the float `0.`, and a progress line that calls `.item()` on a sum that stayed a float aborts the epoch (see "## Findings"). `Distill.Compose` is the corrected composition.

## Model

| member | source | states |
|---|---|---|
| Accumulation.UpdateCountIsCeiling | DeBERTa-FineTune/engine/trainer_accelerate.py:79 | for `n >= 1` steps and a window `w >= 1`, the last step always updates and exactly ⌈n/w⌉ steps update |
| Accumulation.WindowBoundaryCount | DeBERTa-FineTune/engine/trainer_accelerate.py:79 | before the last step, the updating steps are exactly the window boundaries: `k / w` of the first `k` steps |
| Accumulation.NextUpdate | DeBERTa-FineTune/engine/trainer_accelerate.py:79-85 | from any step, an update comes within `w` steps, so no run of steps without an update is longer than `w - 1` |
| Accumulation.LogCountIsCeiling | DeBERTa-FineTune/engine/trainer_accelerate.py:115 | ⌈k/PRINT_FREQ⌉ of the first `k` steps write a progress line |
| Distill.LayerPairs | DeBERTa-FineTune/engine/trainer_accelerate.py:44-45 | `zip` of both sequences sliced at `begin` has `max(0, min(|xs|,|ys|) - begin)` pairs for `begin >= 0`, and pair `i` is `(xs[begin+i], ys[begin+i])`; a negative `begin` counts from the end |
| Distill.Accumulate | DeBERTa-FineTune/engine/trainer_accelerate.py:43-52 | the running loss sum is its start value plus every pair loss; it stays a Python float exactly when it started as one and no pair was visited |
| Distill.KdLossClosedForm | DeBERTa-FineTune/engine/trainer_accelerate.py:40-56 | the KD loss is `cls(logits) + Σ_{i<H} reg(hs[b+i], ths[b+i]) + Σ_{i<A} reg(at[b+i], tat[b+i])`, and a `begin` past either side makes that term 0 |
| Distill.SelfDistillationIsZero | DeBERTa-FineTune/engine/trainer_accelerate.py:40-56 | distilling a model into an identical copy gives zero sub-losses when both loss functions vanish on equal arguments |
| Distill.AsWrittenTelemetryFails | DeBERTa-FineTune/engine/trainer_accelerate.py:43-52 | with the sums started from the float `0.`, the KD progress line cannot read its sub-losses exactly when the hidden-state zip or the attention zip is empty |
| Distill.AsWrittenTelemetryExample | DeBERTa-FineTune/engine/trainer_accelerate.py:117-120 | a twelve-layer model (thirteen hidden states, twelve attention maps) with `BEGIN_LAYER = 12` hits that failure |
| Distill.Compose | DeBERTa-FineTune/engine/trainer_accelerate.py:40-56 | the sums started from a zero tensor give the same three sub-loss values, and the progress line can always read them |
| Trainer.StepLoss | DeBERTa-FineTune/engine/trainer_accelerate.py:22-59 | a step's raw loss exists exactly when plain mode has a task loss, or KD mode has both sub-loss functions; otherwise plain mode fails on the missing loss and KD mode on its assertion. Plain mode takes the task loss. KD mode takes the sum of the three parts, composed with the sums starting from the float `0.` |
| Trainer.KdIgnoresTaskLoss | DeBERTa-FineTune/engine/trainer_accelerate.py:56-59 | in KD mode the student's own task loss has no effect on the step's loss |
| Trainer.Scale | DeBERTa-FineTune/engine/trainer_accelerate.py:62 | the recorded loss times the window is the raw loss |
| Trainer.Step | DeBERTa-FineTune/engine/trainer_accelerate.py:20-138 | a failure of the loss (missing task loss, unset KD function) is the step's error. A step succeeds exactly when its loss exists, the window is non-zero, the batch has labels, the print stride is non-zero, and a logged KD step has non-empty hidden-state and attention zips. A failure is the first of these in source order: window (line 79), labels (108), stride (115), `.item()` on a float (117-120). It records `raw / w` and the learning rate |
| Trainer.StepLogLine | DeBERTa-FineTune/engine/trainer_accelerate.py:115-131 | a successful step writes a line exactly on the stride, with the step, the learning rate, the raw and scaled loss and, under KD only, three parts that add up to the raw loss |
| Trainer.Run | DeBERTa-FineTune/engine/trainer_accelerate.py:20 | the loop runs the steps in order; it succeeds with one record per step, or fails with the error of the first failing step after every earlier step succeeded |
| Trainer.StepEventCounts | DeBERTa-FineTune/engine/trainer_accelerate.py:27-115 | how often one step makes each call. One forward, backward, learning-rate read and metric batch each. The teacher forward only under KD. Clip or measure according to `CLIP_GRAD`. The update group exactly on update steps. The pruner hooks only on update steps with a pruner. A progress line only when due |
| Trainer.TrainEpochSucceeds | DeBERTa-FineTune/engine/trainer_accelerate.py:13-147 | an epoch succeeds exactly when it has a step, a non-zero window and print stride, a loss and labels for every step, and under KD non-empty hidden-state and attention zips on every logged step |
| Trainer.AsWrittenKdEpochFails | DeBERTa-FineTune/engine/trainer_accelerate.py:43-120 | a KD epoch whose first step has an empty hidden-state or attention zip aborts at step 0 with the `.item()` failure, once that step's earlier checks pass |
| Trainer.AsWrittenKdEpochExample | DeBERTa-FineTune/engine/trainer_accelerate.py:43-120 | one KD step of a twelve-layer model with `BEGIN_LAYER = 12` makes the whole epoch fail with the `.item()` error at step 0 |
| Trainer.TrainStepShapes | DeBERTa-FineTune/engine/trainer_accelerate.py:20-142 | the trace is the train-mode switch, each step's events in order, then `compute()`; step `s`'s events are fixed by the update gate and the logging gate for `s` |
| Trainer.TrainStepRecords | DeBERTa-FineTune/engine/trainer_accelerate.py:62-76 | `batch_loss` and `step_lr` have one entry per step: `raw_s / w` and the learning rate read at step `s` |
| Trainer.TrainLossMean | DeBERTa-FineTune/engine/trainer_accelerate.py:141 | the epoch loss is (Σ raw / w) / n |
| Trainer.TrainUpdateCounts | DeBERTa-FineTune/engine/trainer_accelerate.py:79-85 | `optimizer.step`, `lr_scheduler.step`, `zero_grad` and the progress tick each happen once per update step of the epoch |
| Trainer.TrainPrunerCounts | DeBERTa-FineTune/engine/trainer_accelerate.py:87-99 | `prune()` and `_update_mask_conditions()` happen once per update step with a pruner, and never without one |
| Trainer.TrainPassCounts | DeBERTa-FineTune/engine/trainer_accelerate.py:27-109 | the forward, the backward and `add_batch` each happen exactly once per step |
| Trainer.TrainEpochCounts | DeBERTa-FineTune/engine/trainer_accelerate.py:16-142 | one switch to training mode, never to eval mode, one `compute()`, and one progress line per step whose index is a multiple of `PRINT_FREQ` |
| Trainer.TrainEventOrder | DeBERTa-FineTune/engine/trainer_accelerate.py:66-99 | the optimizer step comes right after the learning-rate read, which comes right after the norm; the scheduler step, zero-grad and the tick follow it at once; `prune()` follows the tick, `_update_mask_conditions()` follows `prune()` or its sparsity line, and `sparsity()` follows `_update_mask_conditions()` |
| Trainer.TrainTelemetry | DeBERTa-FineTune/engine/trainer_accelerate.py:115-131 | step `s` writes a line exactly when `s % PRINT_FREQ == 0`, so step 0 always does; the line holds the step, the learning rate, the raw and scaled loss, and, under KD and only under KD, three parts that add up to the raw loss |
| Trainer.ValStep | DeBERTa-FineTune/engine/trainer_accelerate.py:157-176 | a validation step succeeds exactly when the model returned a loss and the print stride is non-zero; a missing loss fails first (line 162), then the stride (line 175). It records the task loss and writes a line exactly on the stride |
| Trainer.ValEpochSucceeds | DeBERTa-FineTune/engine/trainer_accelerate.py:151-198 | a validation epoch succeeds exactly when it has a step, a non-zero print stride and a task loss for every step |
| Trainer.ValLossMean | DeBERTa-FineTune/engine/trainer_accelerate.py:161-188 | the recorded losses are the task losses in order, and the validation loss is their mean |
| Trainer.ValTotal | DeBERTa-FineTune/engine/trainer_accelerate.py:153-189 | the number of each call in a validation epoch: one per step for the forward, the loss record and the metric batch; ⌈n/PRINT_FREQ⌉-many progress lines; one eval switch and one `compute()`; nothing else |
| Trainer.ValEpochCounts | DeBERTa-FineTune/engine/trainer_accelerate.py:153-189 | validation makes one forward, loss record and `add_batch` per step, one eval switch, one `compute()`, and logs on the stride |
| Trainer.ValNeverUpdates | DeBERTa-FineTune/engine/trainer_accelerate.py:151-198 | validation never trains, never runs backward, the optimizer, the scheduler, zero-grad, the tick, the teacher or the pruner |
| PyDict.Get | DeBERTa-FineTune/data/glue/process.py:74 | `d.get(k)` is None exactly when no item has key `k`, otherwise a value stored under `k` |
| PyDict.FromItems | DeBERTa-FineTune/data/glue/process.py:31 | a comprehension builds a dictionary with distinct keys in which every key holds the last value given for it |
| PyDict.EqualIffSameLookups | DeBERTa-FineTune/data/glue/process.py:25-26 | dictionary `==` holds exactly when every lookup agrees |
| PyDict.InvertRoundTrip | DeBERTa-FineTune/data/glue/process.py:51 | inverting a dictionary with distinct values: `inv[v] == k` exactly when `d[k] == v` |
| PyDict.FromItemsInjective | DeBERTa-FineTune/data/glue/process.py:45 | a comprehension over items with distinct values builds a dictionary with distinct values |
| PyStr.Sort | DeBERTa-FineTune/data/glue/process.py:32 | `sorted` returns an ordered permutation of its input |
| PyStr.SortedEqualIff | DeBERTa-FineTune/data/glue/process.py:32 | `sorted(a) == sorted(b)` exactly when `a` and `b` hold the same strings the same number of times |
| GlueProcess.NonLabelColumns | DeBERTa-FineTune/data/glue/process.py:14 | the non-label columns omit "label" and keep every other column as often as it occurs; there are none exactly when every column is "label" |
| GlueProcess.NonLabelAppend | DeBERTa-FineTune/data/glue/process.py:14 | the filter keeps the columns' original order |
| GlueProcess.SelectKeys | DeBERTa-FineTune/data/glue/process.py:10-21 | a named task gets its table entry and fails when it has none. Without a task, "sentence1"/"sentence2" are used when both exist. Otherwise the first non-label column is the first key and the second non-label column, if any, is the second key; there is no second key exactly when there is one such column. It fails exactly when every column is "label" |
| GlueProcess.TextColumns | DeBERTa-FineTune/data/glue/process.py:64-66 | the tokenizer gets one column exactly when there is no second key, otherwise two, first key first |
| GlueProcess.EnumerateLookup | DeBERTa-FineTune/data/glue/process.py:45 | `{v: i for i, v in enumerate(label_list)}` knows exactly the listed labels, and maps each to a position in `[0, |label_list|)` where it is listed |
| GlueProcess.EnumerateDistinct | DeBERTa-FineTune/data/glue/process.py:45 | with distinct labels, `label_list[i]` maps to `i` |
| GlueProcess.EnumerateInjective | DeBERTa-FineTune/data/glue/process.py:45 | that map never gives two labels the same id, even when the list repeats a label |
| GlueProcess.IndexLookup | DeBERTa-FineTune/data/glue/process.py:55 | `{i: l for i, l in enumerate(label_list)}` answers `label_list[i]` for each position and nothing else |
| GlueProcess.FallbackInverse | DeBERTa-FineTune/data/glue/process.py:53-55 | for distinct labels the fallback `label2id` and `id2label` are mutual inverses |
| GlueProcess.LowerNames | DeBERTa-FineTune/data/glue/process.py:31 | the model's label names are lower-cased item by item, with their ids; this fails exactly when some name is not a string |
| GlueProcess.NamesMatchIff | DeBERTa-FineTune/data/glue/process.py:32 | the sorted-name check passes exactly when the label list holds only names, and they are the model's names, each as often |
| GlueProcess.ModelOrder | DeBERTa-FineTune/data/glue/process.py:37 | `{i: label_name_to_id[label_list[i]] for i in range(n)}` succeeds exactly when every index is inside the list and its name is found; it maps `i` to that name's id. It fails with a missed name when some index inside both `range(n)` and the list has an unknown name, and otherwise with the index error, which means `n` ran past the list |
| GlueProcess.ModelOrderNeverMisses | DeBERTa-FineTune/data/glue/process.py:32-37 | once the sorted names agree, the lookup at line 37 never misses, and the comprehension succeeds exactly when `num_labels <= len(label_list)` |
| GlueProcess.LabelToId | DeBERTa-FineTune/data/glue/process.py:24-47 | the lookup at line 37 never fails. Any failure comes from the model-label branch. A custom dataset gets the enumeration map. A named regression task gets none, and so does a named task whose configuration has the default labels. For a named classification task with its own labels: a name that is not a string or an unorderable list fails, mismatched names give none, and matching names give the model order exactly when `num_labels <= len(label_list)`, failing with the index error otherwise. A named task gets a map only on that path, and the map has exactly the keys `0 .. num_labels-1` |
| GlueProcess.ModelOrderAdopted | DeBERTa-FineTune/data/glue/process.py:24-37 | when the configuration carries its own labels for a named classification task and they match the list, the model order is adopted: class `k < num_labels` maps to the model's id for the `k`-th listed name, and any other label (a test split's -1) to None |
| GlueProcess.AssignConfig | DeBERTa-FineTune/data/glue/process.py:49-55 | a chosen map becomes `label2id`. With no map, a custom dataset or a regression task keeps the configuration as it was. A named classification task instead gets `id2label` answering `label_list[i]` at each position `i` and nothing else, and `label2id` knowing exactly the listed labels, each mapped to a position where it is listed |
| GlueProcess.AssignedRoundTrip | DeBERTa-FineTune/data/glue/process.py:49-51 | when the chosen map gives distinct ids, `id2label` and `label2id` undo each other in both directions |
| GlueProcess.FallbackRoundTrip | DeBERTa-FineTune/data/glue/process.py:53-55 | in the fallback for a named classification task with distinct labels, `id2label[i] == label_list[i]` and `label2id[label_list[i]] == i` for every position `i`, and `label2id[l] == i` exactly when `id2label[i] == l` |
| GlueProcess.Preprocess | DeBERTa-FineTune/data/glue/process.py:7-55 | it succeeds exactly when the key choice and the label-map choice both succeed, and otherwise fails with the key choice's error if that failed, else the label map's. It never fails on the line-37 lookup. The keys are those `SelectKeys` picks and the map is the one `LabelToId` chooses. Without a task it succeeds exactly when some column is not "label", and it uses the enumeration map. A chosen map is written with its inversion; with no map, a named classification task's configuration gets `id2label[i] == label_list[i]` at each position and nothing else, and a `label2id` that knows exactly the listed labels. A named regression task leaves the configuration alone |
| GlueProcess.NamedFallbackConfig | DeBERTa-FineTune/data/glue/process.py:53-55 | when a named classification task gets no label map, the configuration left behind maps position `i` and `label_list[i]` to each other for distinct labels, and its two maps are mutual inverses |
| GlueProcess.CustomConfigRoundTrip | DeBERTa-FineTune/data/glue/process.py:44-51 | for a custom dataset every listed label's id maps back to that label, even when the list repeats a label |
| GlueProcess.CustomLabelMap | DeBERTa-FineTune/data/glue/process.py:44-45 | for a custom dataset the label map is injective and its ids lie in `[0, |label_list|)` |
| GlueProcess.MapLabels | DeBERTa-FineTune/data/glue/process.py:74 | entry `i` is `label_to_id.get(labels[i])`, None exactly when no key of the map is that label |
| GlueProcess.GenerateFeatures | DeBERTa-FineTune/data/glue/process.py:62-91 | a batch without "label" gets no labels. With no map the labels are copied unchanged. With a map, entry `i` is the map's value for the batch's label `i`. The tokenizer gets the first key's column, then the second key's column when there is one |
| GlueProcess.NamedFeatureLabels | DeBERTa-FineTune/data/glue/process.py:24-74 | for a named classification task that adopts the model order, an example's class `k < num_labels` becomes the model's id for the `k`-th listed name, which exists; a test split's -1, like any other label, becomes None |
| GlueProcess.CustomFeatureLabels | DeBERTa-FineTune/data/glue/process.py:44-74 | for a custom dataset an example's label becomes None exactly when it is not listed, and otherwise a position where it is listed |

## Left out

- Tensor numerics are left out: the forward and backward passes, `accelerator.gather`, `unwrap_model`, `torch.no_grad`, and `argmax`/`squeeze` on the logits. They appear only as events. Losses and learning rates are reals.
- Gradient-clipping values are left out. `clip_grad_norm_` and `get_grad_norm` (from `utils.misc`, which is not part of this model) appear only as the event that runs on every step.
- The KD sub-loss functions are opaque parameters returning reals, and their results are taken to be tensors: `Distill.ComposeFrom` tags them `Tensor`. The success condition of the as-written KD epoch (`Trainer.StepsReady`) rests on that; a sub-loss function that returned a Python float would make the `.item()` failure possible on more inputs.
- The pruner is left out except for its call order. What `prune()` and `_update_mask_conditions()` return is an input to each step.
- Timing, `max_memory_allocated`, `empty_cache`, log-string formatting, `TRAIN.EPOCHS` and the teacher-mode prefix of validation lines are left out. They are I/O only.
- The tokenizer call, `data.map`, its cache and `main_process_first` are left out. The model records which columns reach the tokenizer.
- `TASK_TO_KEYS` and `PretrainedConfig(num_labels=...).label2id` come from code that is not part of this model. They are parameters.
- The logger calls in `preprocess_data` are left out.
- GlueProcess.GenerateFeatures: a batch that lacks a selected text column raises `KeyError` at `examples[sentence1_key]` (process.py:65); the model assumes every batch has the columns chosen from the training split, because the dataset's column layout is not part of this model.
- Labels are integers or strings. Float labels and Python's `True == 1` equality are not modelled.
- PyStr.Lower: lower-cases ASCII letters only; Python's full Unicode case mapping is not modelled.
- Trainer.TrainUpdateCounts: states the count as `UpdateCount(n, n, w)`, the number of steps the gate opens on, rather than ⌈n/w⌉. Accumulation.UpdateCountIsCeiling proves that this number is ⌈n/w⌉.
- Trainer.TrainPrunerCounts: states the count as `UpdateCount`, with ⌈n/w⌉ proved separately, as above.
- Trainer.TrainEpochCounts: states the progress-line count as `LogCount(n, PRINT_FREQ)`. Accumulation.LogCountIsCeiling proves that this is ⌈n/PRINT_FREQ⌉.
- Trainer.ValTotal: states the progress-line count as `LogCount`, with ⌈n/PRINT_FREQ⌉ proved separately, as above.
- Trainer.ValEpochCounts: states the progress-line count as `LogCount`, with ⌈n/PRINT_FREQ⌉ proved separately, as above.
- Trainer.ValEpochSucceeds: the `batch["labels"]` read at line 168 is not a separate failure. A model computes its loss only from the batch's labels, so a batch without labels has already failed at the `.item()` on its missing loss (line 162).
- The sum of gathered samples equalling the dataset size is not modelled, because sharding across workers is not modelled.

## Findings

| source | as written | input that shows it | evidently intended | confidence | as-written member | corrected member |
|---|---|---|---|---|---|---|
| DeBERTa-FineTune/engine/trainer_accelerate.py:43-52, 117-120 | `hs_loss` and `attn_loss` start as the Python float `0.` and become tensors only when the zip visits a pair; the progress line calls `.item()` on both | KD with `BEGIN_LAYER = 12` on a twelve-layer model: the attention zip is empty, `attn_loss` stays `0.`, and step 0 (always logged) raises `AttributeError` | the sums start from a zero tensor (or the line reads them without `.item()`), so a layer range that distils nothing gives a zero term | not executed | Distill.AsWrittenTelemetryFails, Distill.AsWrittenTelemetryExample, Trainer.AsWrittenKdEpochFails, Trainer.AsWrittenKdEpochExample | Distill.Compose |

=== FILE: accumulation.dfy ===
/** The gradient-accumulation schedule of one training epoch: which steps
    advance the optimizer, and which steps write a progress line. */
module Accumulation {

  /** Step `step` of an epoch of `steps` steps updates the parameters when it
      closes an accumulation window of `window` steps, or when it is the last
      step of the epoch (the trailing partial window is flushed). A zero
      window is a division by zero in `Trainer.train` and never reaches here. */
  predicate ShouldUpdate(step: int, steps: int, window: int)
    requires window != 0
  {
    (step + 1) % window == 0 || step == steps - 1
  }

  /** Step `step` writes a progress line when it is a multiple of the print
      frequency. */
  predicate ShouldLog(step: int, printFreq: int)
    requires printFreq != 0
  {
    step % printFreq == 0
  }

  /** How many of the steps 0 .. k-1 update. */
  function UpdateCount(k: nat, steps: int, window: int): nat
    requires window != 0
  {
    if k == 0 then 0
    else UpdateCount(k - 1, steps, window) + (if ShouldUpdate(k - 1, steps, window) then 1 else 0)
  }

  /** How many of the steps 0 .. k-1 write a progress line. */
  function LogCount(k: nat, printFreq: int): nat
    requires printFreq != 0
  {
    if k == 0 then 0
    else LogCount(k - 1, printFreq) + (if ShouldLog(k - 1, printFreq) then 1 else 0)
  }

  /** Quotient and remainder are determined by `a == q * m + r, 0 <= r < m`. */
  lemma DivModUnique(a: int, m: int, q: int, r: int)
    requires m >= 1 && a == q * m + r && 0 <= r < m
    ensures a / m == q && a % m == r
  {
    var q', r' := a / m, a % m;
    assert q' * m + r' == a;
    var d := q - q';
    assert d * m == r' - r by {
      assert d * m == q * m - q' * m;
    }
  }

  /** The quotient by `m` grows by one exactly when `a + 1` is a multiple of `m`. */
  lemma DivStep(a: nat, m: nat)
    requires m >= 1
    ensures (a + 1) / m == a / m + (if (a + 1) % m == 0 then 1 else 0)
  {
    var q, r := a / m, a % m;
    if r == m - 1 {
      DivModUnique(a + 1, m, q + 1, 0);
    } else {
      DivModUnique(a + 1, m, q, r + 1);
    }
  }

  /** Before the last step, the updates are exactly the window boundaries. */
  lemma {:induction false} WindowBoundaryCount(k: nat, steps: nat, window: nat)
    requires window >= 1 && k < steps
    ensures UpdateCount(k, steps, window) == k / window
  {
    if k > 0 {
      WindowBoundaryCount(k - 1, steps, window);
      DivStep(k - 1, window);
    }
  }

  /** An epoch of `steps >= 1` steps updates ceil(steps / window) times, the
      last step being one of them. */
  lemma UpdateCountIsCeiling(steps: nat, window: nat)
    requires steps >= 1 && window >= 1
    ensures ShouldUpdate(steps - 1, steps, window)
    ensures UpdateCount(steps, steps, window) == (steps + window - 1) / window
  {
    WindowBoundaryCount(steps - 1, steps, window);
    DivModUnique(steps - 1 + window, window, (steps - 1) / window + 1, (steps - 1) % window);
  }

  /** ceil(k / printFreq) of the first k steps write a progress line. */
  lemma {:induction false} LogCountIsCeiling(k: nat, printFreq: nat)
    requires printFreq >= 1
    ensures LogCount(k, printFreq) == (k + printFreq - 1) / printFreq
  {
    if k > 0 {
      LogCountIsCeiling(k - 1, printFreq);
      DivStep(k - 1 + printFreq - 1, printFreq);
      DivModUnique(k - 1 + printFreq, printFreq, (k - 1) / printFreq + 1, (k - 1) % printFreq);
    }
  }

  /** No step from `s` up to (not including) the end of its window updates,
      unless the epoch ends first. */
  lemma NoUpdateInsideWindow(s: nat, steps: nat, window: nat, t: nat)
    requires window >= 1 && s <= t < steps - 1
    requires t < s - s % window + window - 1
    ensures !ShouldUpdate(t, steps, window)
  {
    var q := s / window;
    DivModUnique(t + 1, window, q, s % window + 1 + (t - s));
  }

  /** The first update at or after step `s`: it comes within `window` steps,
      so no run of steps without an update is longer than `window - 1`. */
  function NextUpdate(s: nat, steps: nat, window: nat): (u: nat)
    requires window >= 1 && s < steps
    ensures s <= u < steps && u - s < window
    ensures ShouldUpdate(u, steps, window)
    ensures forall t :: s <= t < u ==> !ShouldUpdate(t, steps, window)
  {
    var boundary := s - s % window + window - 1;
    DivModUnique(boundary + 1, window, s / window + 1, 0);
    assert forall t :: s <= t < boundary && t < steps - 1 ==> !ShouldUpdate(t, steps, window) by {
      forall t | s <= t < boundary && t < steps - 1
        ensures !ShouldUpdate(t, steps, window)
      {
        NoUpdateInsideWindow(s, steps, window, t);
      }
    }
    if boundary < steps then boundary else steps - 1
  }
}

=== FILE: distill.dfy ===
/** The loss composer of knowledge-distillation (KD) training: a logit loss
    against the teacher plus per-layer regression losses over hidden states and
    attentions, paired positionally after both sides are sliced at the same
    `begin` layer. The sub-loss functions are opaque and return reals. */
module Distill {
  import opened Wrappers

  /** What one forward pass yields: the task loss (absent without labels),
      the logits, and the per-layer hidden states and attentions. */
  datatype ModelOutput<T> = ModelOutput(loss: Option<real>, logits: T, hidden: seq<T>, attentions: seq<T>)

  /** A scalar as the training loop holds it: a plain Python float or a
      one-element tensor. Only tensors answer `.item()`. */
  datatype Scalar = PyFloat(v: real) | Tensor(v: real)

  /** The three KD sub-losses of one step. */
  datatype KdParts = KdParts(logit: Scalar, hidden: Scalar, attn: Scalar)

  /** The sub-loss values the progress line prints. */
  datatype KdValues = KdValues(logit: real, hidden: real, attn: real)

  function Min(a: int, b: int): int { if a <= b then a else b }

  function Max(a: int, b: int): int { if a >= b then a else b }

  /** Python `+`: the result is a tensor as soon as one operand is. */
  function Add(a: Scalar, b: Scalar): Scalar
  {
    if a.Tensor? || b.Tensor? then Tensor(a.v + b.v) else PyFloat(a.v + b.v)
  }

  /** `x.item()`: a Python float has no such attribute. */
  function Item(x: Scalar): Option<real>
  {
    if x.Tensor? then Some(x.v) else None
  }

  /** Where Python's `s[begin:]` starts on a sequence of length `len`;
      a negative `begin` counts from the end. */
  function SliceStart(len: nat, begin: int): (st: nat)
    ensures st <= len
  {
    if begin >= 0 then Min(begin, len) else Max(0, len + begin)
  }

  /** Python's `s[begin:]`. */
  function SliceFrom<T>(s: seq<T>, begin: int): seq<T>
  {
    s[SliceStart(|s|, begin)..]
  }

  /** Python's `zip(xs, ys)`: stops at the shorter sequence. */
  function Zip<T>(xs: seq<T>, ys: seq<T>): seq<(T, T)>
  {
    seq(Min(|xs|, |ys|), i requires 0 <= i < Min(|xs|, |ys|) => (xs[i], ys[i]))
  }

  /** The (student, teacher) layer pairs the KD loop visits:
      `zip(xs[begin:], ys[begin:])`. */
  function LayerPairs<T>(xs: seq<T>, ys: seq<T>, begin: int): (r: seq<(T, T)>)
    ensures |r| == if begin >= 0 then Max(0, Min(|xs|, |ys|) - begin) else Min(Min(|xs|, |ys|), -begin)
    ensures forall i :: 0 <= i < |r| ==>
      r[i] == (xs[SliceStart(|xs|, begin) + i], ys[SliceStart(|ys|, begin) + i])
    ensures begin >= 0 ==> forall i :: 0 <= i < |r| ==> r[i] == (xs[begin + i], ys[begin + i])
  {
    Zip(SliceFrom(xs, begin), SliceFrom(ys, begin))
  }

  /** The plain sum of the per-pair losses. */
  function PairSum<T>(reg: (T, T) -> real, pairs: seq<(T, T)>): real
  {
    if |pairs| == 0 then 0.0
    else PairSum(reg, pairs[..|pairs| - 1]) + reg(pairs[|pairs| - 1].0, pairs[|pairs| - 1].1)
  }

  /** The loop `acc = init; for x, y in pairs: acc = acc + reg(x, y)`. Its
      value is `init` plus the pair losses; it is a tensor unless it started
      as a float and no pair was visited. */
  function Accumulate<T>(reg: (T, T) -> real, pairs: seq<(T, T)>, init: Scalar): (r: Scalar)
    ensures r.v == init.v + PairSum(reg, pairs)
    ensures r.Tensor? <==> init.Tensor? || |pairs| > 0
  {
    if |pairs| == 0 then init
    else Add(Accumulate(reg, pairs[..|pairs| - 1], init), Tensor(reg(pairs[|pairs| - 1].0, pairs[|pairs| - 1].1)))
  }

  /** The closed form: the sum over i < k of `reg(xs[begin + i], ys[begin + i])`. */
  function IndexSum<T>(reg: (T, T) -> real, xs: seq<T>, ys: seq<T>, begin: nat, k: nat): real
    requires k == 0 || (begin + k <= |xs| && begin + k <= |ys|)
  {
    if k == 0 then 0.0
    else IndexSum(reg, xs, ys, begin, k - 1) + reg(xs[begin + k - 1], ys[begin + k - 1])
  }

  /** The sub-losses with both running sums starting from `zero`. */
  function ComposeFrom<T>(zero: Scalar, cls: (T, T) -> real, reg: (T, T) -> real, begin: int,
                          student: ModelOutput<T>, teacher: ModelOutput<T>): KdParts
  {
    KdParts(Tensor(cls(student.logits, teacher.logits)),
            Accumulate(reg, LayerPairs(student.hidden, teacher.hidden, begin), zero),
            Accumulate(reg, LayerPairs(student.attentions, teacher.attentions, begin), zero))
  }

  /** The sub-losses as the trainer computes them: the hidden-state and
      attention sums start from the Python float `0.`. */
  function ComposeAsWritten<T>(cls: (T, T) -> real, reg: (T, T) -> real, begin: int,
                               student: ModelOutput<T>, teacher: ModelOutput<T>): KdParts
  {
    ComposeFrom(PyFloat(0.0), cls, reg, begin, student, teacher)
  }

  /** The composite KD loss `logit_loss + hs_loss + attn_loss`. */
  function Raw(p: KdParts): real
  {
    p.logit.v + p.hidden.v + p.attn.v
  }

  /** The `.item()` calls of a KD progress line: all three must be tensors. */
  function Telemetry(p: KdParts): Option<KdValues>
  {
    match (Item(p.logit), Item(p.hidden), Item(p.attn))
    case (Some(l), Some(h), Some(a)) => Some(KdValues(l, h, a))
    case _ => None
  }

  /** The sub-losses with both running sums starting from a zero tensor: the
      progress line can always read them, and the loss is the same as the
      trainer's. */
  function Compose<T>(cls: (T, T) -> real, reg: (T, T) -> real, begin: int,
                      student: ModelOutput<T>, teacher: ModelOutput<T>): (p: KdParts)
    ensures Telemetry(p) == Some(KdValues(p.logit.v, p.hidden.v, p.attn.v))
    ensures p.logit.v == cls(student.logits, teacher.logits)
    ensures p.hidden.v == ComposeAsWritten(cls, reg, begin, student, teacher).hidden.v
    ensures p.attn.v == ComposeAsWritten(cls, reg, begin, student, teacher).attn.v
  {
    ComposeFrom(Tensor(0.0), cls, reg, begin, student, teacher)
  }

  /** As written, the KD progress line fails (a float has no `.item()`)
      exactly when the hidden-state or the attention zip is empty, e.g. when
      `begin` is at least the number of attention layers. */
  lemma AsWrittenTelemetryFails<T>(cls: (T, T) -> real, reg: (T, T) -> real, begin: int,
                                   student: ModelOutput<T>, teacher: ModelOutput<T>)
    ensures Telemetry(ComposeAsWritten(cls, reg, begin, student, teacher)).None?
        <==> |LayerPairs(student.hidden, teacher.hidden, begin)| == 0
             || |LayerPairs(student.attentions, teacher.attentions, begin)| == 0
  {
  }

  /** A twelve-layer model has thirteen hidden states and twelve attention
      maps; with `begin == 12` only the last hidden state is distilled and
      the attention sum stays the float `0.`. */
  lemma AsWrittenTelemetryExample()
    ensures var s := ModelOutput(None, 0, seq(13, i => i), seq(12, i => i));
            Telemetry(ComposeAsWritten((x: int, y: int) => 0.0, (x: int, y: int) => 1.0, 12, s, s)).None?
  {
    var s := ModelOutput(None, 0, seq(13, i => i), seq(12, i => i));
    AsWrittenTelemetryFails((x: int, y: int) => 0.0, (x: int, y: int) => 1.0, 12, s, s);
  }

  /** The pair sum over the first k layer pairs is the closed-form sum. */
  lemma {:induction false} PairSumClosedForm<T>(reg: (T, T) -> real, xs: seq<T>, ys: seq<T>, begin: nat, k: nat)
    requires k <= |LayerPairs(xs, ys, begin)|
    ensures PairSum(reg, LayerPairs(xs, ys, begin)[..k]) == IndexSum(reg, xs, ys, begin, k)
  {
    var pairs := LayerPairs(xs, ys, begin);
    if k > 0 {
      PairSumClosedForm(reg, xs, ys, begin, k - 1);
      assert pairs[..k][..k - 1] == pairs[..k - 1];
      assert pairs[..k][k - 1] == (xs[begin + k - 1], ys[begin + k - 1]);
    }
  }

  /** The running sum over all layer pairs from `begin` is the closed-form
      sum over the `max(0, min(|xs|, |ys|) - begin)` aligned layers. */
  lemma LayerSumClosedForm<T>(reg: (T, T) -> real, xs: seq<T>, ys: seq<T>, begin: nat, zero: Scalar)
    ensures Accumulate(reg, LayerPairs(xs, ys, begin), zero).v
         == zero.v + IndexSum(reg, xs, ys, begin, Max(0, Min(|xs|, |ys|) - begin))
  {
    var p := LayerPairs(xs, ys, begin);
    PairSumClosedForm(reg, xs, ys, begin, |p|);
    assert p[..|p|] == p;
  }

  /** With `begin >= 0` the KD loss is
      `cls(logits, teacher logits) + Σ_{i<H} reg(hs[begin+i], ths[begin+i]) + Σ_{i<A} reg(at[begin+i], tat[begin+i])`
      with `H = max(0, min(|hs|, |ths|) - begin)` and likewise `A`; a `begin`
      past either side leaves that term 0. */
  lemma KdLossClosedForm<T>(cls: (T, T) -> real, reg: (T, T) -> real, begin: nat,
                            student: ModelOutput<T>, teacher: ModelOutput<T>)
    ensures var h := Max(0, Min(|student.hidden|, |teacher.hidden|) - begin);
            var a := Max(0, Min(|student.attentions|, |teacher.attentions|) - begin);
            && Raw(ComposeAsWritten(cls, reg, begin, student, teacher))
               == cls(student.logits, teacher.logits)
                  + IndexSum(reg, student.hidden, teacher.hidden, begin, h)
                  + IndexSum(reg, student.attentions, teacher.attentions, begin, a)
            && (h == 0 ==> ComposeAsWritten(cls, reg, begin, student, teacher).hidden.v == 0.0)
            && (a == 0 ==> ComposeAsWritten(cls, reg, begin, student, teacher).attn.v == 0.0)
  {
    LayerSumClosedForm(reg, student.hidden, teacher.hidden, begin, PyFloat(0.0));
    LayerSumClosedForm(reg, student.attentions, teacher.attentions, begin, PyFloat(0.0));
  }

  /** A sum of pair losses over pairs of equal members is 0 when the loss of
      a tensor against itself is 0. */
  lemma {:induction false} PairSumOfEqualPairs<T>(reg: (T, T) -> real, pairs: seq<(T, T)>)
    requires forall x :: reg(x, x) == 0.0
    requires forall i :: 0 <= i < |pairs| ==> pairs[i].0 == pairs[i].1
    ensures PairSum(reg, pairs) == 0.0
  {
    if |pairs| > 0 {
      PairSumOfEqualPairs(reg, pairs[..|pairs| - 1]);
    }
  }

  /** Distilling a model into an identical copy of itself costs nothing when
      both sub-loss functions vanish on equal arguments, for any `begin`. */
  lemma SelfDistillationIsZero<T>(cls: (T, T) -> real, reg: (T, T) -> real, begin: int, m: ModelOutput<T>)
    requires forall x :: cls(x, x) == 0.0
    requires forall x :: reg(x, x) == 0.0
    ensures var p := ComposeAsWritten(cls, reg, begin, m, m);
            p.logit.v == 0.0 && p.hidden.v == 0.0 && p.attn.v == 0.0 && Raw(p) == 0.0
  {
    PairSumOfEqualPairs(reg, LayerPairs(m.hidden, m.hidden, begin));
    PairSumOfEqualPairs(reg, LayerPairs(m.attentions, m.attentions, begin));
  }
}

=== FILE: glue_process.dfy ===
/** Dataset preparation for a GLUE fine-tuning run (`preprocess_data`): which
    columns hold the text, which label ids the model is told about, and how
    each example's label is turned into the id the loss is computed against.
    The tokenizer, the dataset library and the logger are not part of the
    model; an exception `preprocess_data` would raise becomes a `PrepError`. */
module GlueProcess {
  import opened Wrappers
  import opened PyDict
  import PyStr

  /** A dataset label: an index into a class list, or a class name. */
  datatype LabelValue = IntLabel(i: int) | StrLabel(s: string)

  /** The two text columns handed to the tokenizer; the second may be absent. */
  datatype SentenceKeys = SentenceKeys(first: string, second: Option<string>)

  /** The exceptions `preprocess_data` can raise while preparing the data. */
  datatype PrepError =
    | UnknownTask           // `TASK_TO_KEYS[task_name]` misses
    | NoTextColumn          // no column besides "label" to read text from
    | NonStringLabelName    // `.lower()` on a label name that is not a string
    | UnorderableLabels     // `sorted` over a label list mixing ints and strings
    | LabelIndexOutOfRange  // `label_list[i]` with `i >= len(label_list)`
    | MissingModelLabel     // `label_name_to_id[...]` misses

  /** The label vocabulary stored in the model's configuration. */
  datatype LabelConfig = LabelConfig(label2id: Dict<LabelValue, int>, id2label: Dict<int, LabelValue>)

  /** What the caller supplies: the train split's columns, the task (None for
      a custom dataset), the label count and list, and the regression flag. */
  datatype Inputs = Inputs(
    trainColumns: seq<string>,
    task: Option<string>,
    numLabels: int,
    labelList: seq<LabelValue>,
    isRegression: bool)

  /** What preparation fixes before the dataset is mapped. */
  datatype Prepared = Prepared(keys: SentenceKeys, labelToId: Option<Dict<LabelValue, int>>, config: LabelConfig)

  /** The `labels` field of a mapped batch. */
  datatype Labels =
    | NoLabels                       // the batch had no "label" column
    | Mapped(ids: seq<Option<int>>)  // looked up in `label_to_id`
    | Copied(raw: seq<LabelValue>)   // passed through unchanged

  /** One batch of examples, as far as label mapping sees it. */
  datatype Batch = Batch(labels: Option<seq<LabelValue>>)

  /** A mapped batch: the columns given to the tokenizer, in order, and the labels. */
  datatype Features = Features(texts: seq<string>, labels: Labels)

  /** No element of `s` occurs twice. This is about a plain list such as
      `label_list`; `PyDict.DistinctKeys` is the same property of a
      dictionary's item keys, which every dictionary satisfies, whereas a
      label list may repeat a label. */
  ghost predicate Distinct<T>(s: seq<T>)
  {
    forall i, j :: 0 <= i < j < |s| ==> s[i] != s[j]
  }

  // ---------------------------------------------------------------- columns

  /** The train columns other than "label", in their original order. */
  function NonLabelColumns(cols: seq<string>): (r: seq<string>)
    ensures "label" !in r
    ensures forall c :: c != "label" ==> multiset(r)[c] == multiset(cols)[c]
    ensures forall c :: c in r <==> c in cols && c != "label"
    ensures |r| == 0 <==> forall i :: 0 <= i < |cols| ==> cols[i] == "label"
  {
    if |cols| == 0 then []
    else
      var rest := NonLabelColumns(cols[1..]);
      assert cols == [cols[0]] + cols[1..];
      if cols[0] == "label" then rest else [cols[0]] + rest
  }

  /** Filtering keeps the order: the columns of a concatenation are the
      columns of each part, one after the other. */
  lemma {:induction false} NonLabelAppend(a: seq<string>, b: seq<string>)
    ensures NonLabelColumns(a + b) == NonLabelColumns(a) + NonLabelColumns(b)
  {
    if |a| > 0 {
      assert (a + b)[0] == a[0] && (a + b)[1..] == a[1..] + b;
      NonLabelAppend(a[1..], b);
      assert NonLabelColumns(a + b) == (if a[0] == "label" then [] else [a[0]]) + NonLabelColumns(a[1..] + b);
    } else {
      assert a + b == b;
    }
  }

  /** The text columns: the task's fixed pair when a task is named, otherwise
      "sentence1"/"sentence2" when both exist, otherwise the first two
      non-label columns, otherwise the only one. */
  function SelectKeys(taskKeys: Dict<string, SentenceKeys>, task: Option<string>, cols: seq<string>): (r: Result<SentenceKeys, PrepError>)
    ensures task.Some? ==> (r.Success? <==> Get(taskKeys, task.value).Some?)
    ensures task.Some? && r.Success? ==> Get(taskKeys, task.value) == Some(r.value)
    ensures task.None? ==> (r.Failure? <==> forall i :: 0 <= i < |cols| ==> cols[i] == "label")
    ensures task.None? && "sentence1" in cols && "sentence2" in cols ==>
              r == Success(SentenceKeys("sentence1", Some("sentence2")))
    ensures task.None? && r.Success? ==> r.value.first in cols && r.value.first != "label"
    ensures task.None? && r.Success? && r.value.second.Some? ==>
              r.value.second.value in cols && r.value.second.value != "label"
    ensures task.None? && r.Success? ==> (r.value.second.None? <==> |NonLabelColumns(cols)| == 1)
    ensures task.None? && !("sentence1" in cols && "sentence2" in cols) && r.Success? ==>
              var nl := NonLabelColumns(cols);
              && |nl| >= 1 && r.value.first == nl[0]
              && (r.value.second.Some? ==> |nl| >= 2 && r.value.second.value == nl[1])
    ensures r.Failure? ==> r.error == (if task.Some? then UnknownTask else NoTextColumn)
  {
    match task
    case Some(t) =>
      (match Get(taskKeys, t)
       case Some(k) => Success(k)
       case None => Failure(UnknownTask))
    case None =>
      var nl := NonLabelColumns(cols);
      if "sentence1" in nl && "sentence2" in nl then Success(SentenceKeys("sentence1", Some("sentence2")))
      else if |nl| >= 2 then Success(SentenceKeys(nl[0], Some(nl[1])))
      else if |nl| == 1 then Success(SentenceKeys(nl[0], None))
      else Failure(NoTextColumn)
  }

  /** The columns passed to the tokenizer: one exactly when there is no second key. */
  function TextColumns(keys: SentenceKeys): (r: seq<string>)
    ensures |r| == (if keys.second.None? then 1 else 2)
    ensures r[0] == keys.first
    ensures keys.second.Some? ==> r[1] == keys.second.value
  {
    if keys.second.None? then [keys.first] else [keys.first, keys.second.value]
  }

  // ------------------------------------------------------------ label maps

  /** The items of `enumerate(label_list)` with each pair turned round. */
  function EnumerateItems(ls: seq<LabelValue>): seq<(LabelValue, int)>
  {
    seq(|ls|, i requires 0 <= i < |ls| => (ls[i], i))
  }

  /** `{v: i for i, v in enumerate(label_list)}`. */
  function EnumerateLabels(ls: seq<LabelValue>): Dict<LabelValue, int>
  {
    FromItems(EnumerateItems(ls))
  }

  /** `{i: l for i, l in enumerate(label_list)}`. */
  function IndexLabels(ls: seq<LabelValue>): Dict<int, LabelValue>
  {
    FromItems(seq(|ls|, i requires 0 <= i < |ls| => (i, ls[i])))
  }

  /** The enumerated map knows exactly the listed labels, and each known label
      maps to a position where it is listed, inside `[0, |ls|)`. */
  lemma EnumerateLookup(ls: seq<LabelValue>, k: LabelValue)
    ensures Get(EnumerateLabels(ls), k).Some? <==> k in ls
    ensures Get(EnumerateLabels(ls), k).Some? ==>
              var i := Get(EnumerateLabels(ls), k).value; 0 <= i < |ls| && ls[i] == k
  {
    var items := EnumerateItems(ls);
    if k in ls {
      var i :| 0 <= i < |ls| && ls[i] == k;
      assert items[i].0 == k;
    }
    if LastValue(items, k).Some? {
      var j :| 0 <= j < |items| && items[j] == (k, LastValue(items, k).value);
    }
  }

  /** With distinct labels, label `ls[i]` maps to `i`. */
  lemma EnumerateDistinct(ls: seq<LabelValue>, i: nat)
    requires Distinct(ls) && i < |ls|
    ensures Get(EnumerateLabels(ls), ls[i]) == Some(i)
  {
    var items := EnumerateItems(ls);
    assert DistinctKeys(items);
    LastValueIff(items, ls[i], i);
    assert items[i] == (ls[i], i);
  }

  /** The enumerated map never gives two labels the same id, whether or not
      the list repeats a label. */
  lemma EnumerateInjective(ls: seq<LabelValue>)
    ensures Injective(EnumerateLabels(ls))
  {
    FromItemsInjective(EnumerateItems(ls));
  }

  /** The id-to-label map built by enumeration answers `ls[i]` for every
      position `i` and nothing else. */
  lemma IndexLookup(ls: seq<LabelValue>, i: int)
    ensures Get(IndexLabels(ls), i) == if 0 <= i < |ls| then Some(ls[i]) else None
  {
    var items := seq(|ls|, j requires 0 <= j < |ls| => (j, ls[j]));
    assert DistinctKeys(items);
    if 0 <= i < |ls| {
      LastValueIff(items, i, ls[i]);
      assert items[i] == (i, ls[i]);
    }
  }

  /** For distinct labels the two enumerated maps are mutual inverses. */
  lemma FallbackInverse(ls: seq<LabelValue>, l: LabelValue, i: int)
    requires Distinct(ls)
    ensures Get(EnumerateLabels(ls), l) == Some(i) <==> Get(IndexLabels(ls), i) == Some(l)
  {
    EnumerateLookup(ls, l);
    IndexLookup(ls, i);
    if Get(IndexLabels(ls), i) == Some(l) {
      EnumerateDistinct(ls, i);
    }
  }

  // ------------------------------------------------------ model label order

  /** `{k.lower(): v for k, v in label2id.items()}` before keys collapse:
      the lower-cased items, failing on the first name that is not a string. */
  function LowerNames(d: Dict<LabelValue, int>): (r: Result<seq<(string, int)>, PrepError>)
    ensures r.Success? <==> forall i :: 0 <= i < |d| ==> d[i].0.StrLabel?
    ensures r.Success? ==> |r.value| == |d| &&
                           forall i :: 0 <= i < |d| ==> r.value[i] == (PyStr.Lower(d[i].0.s), d[i].1)
    ensures r.Failure? ==> r.error == NonStringLabelName
  {
    if |d| == 0 then Success([])
    else
      match d[0].0
      case IntLabel(_) => Failure(NonStringLabelName)
      case StrLabel(s) =>
        (match LowerNames(d[1..])
         case Failure(e) =>
           assert exists i :: 0 <= i < |d| - 1 && !d[1..][i].0.StrLabel?;
           Failure(e)
         case Success(rest) => Success([(PyStr.Lower(s), d[0].1)] + rest))
  }

  /** The strings of a label list made only of names. */
  function Names(ls: seq<LabelValue>): seq<string>
    requires forall i :: 0 <= i < |ls| ==> ls[i].StrLabel?
  {
    seq(|ls|, i requires 0 <= i < |ls| => ls[i].s)
  }

  /** `list(sorted(names)) == list(sorted(label_list))`. Sorting a list that
      mixes ints and strings raises; a list of ints never equals a list of
      strings once it is non-empty. */
  function NamesMatch(names: seq<string>, ls: seq<LabelValue>): Result<bool, PrepError>
  {
    if forall i :: 0 <= i < |ls| ==> ls[i].StrLabel? then Success(PyStr.Sort(names) == PyStr.Sort(Names(ls)))
    else if forall i :: 0 <= i < |ls| ==> ls[i].IntLabel? then Success(false)
    else Failure(UnorderableLabels)
  }

  /** The sorted-name check passes exactly when the list holds only names and
      they are the model's names, each as often. */
  lemma NamesMatchIff(names: seq<string>, ls: seq<LabelValue>)
    ensures NamesMatch(names, ls) == Success(true) <==>
              (forall i :: 0 <= i < |ls| ==> ls[i].StrLabel?) && multiset(names) == multiset(Names(ls))
  {
    if forall i :: 0 <= i < |ls| ==> ls[i].StrLabel? {
      PyStr.SortedEqualIff(names, Names(ls));
    }
  }

  /** `label_name_to_id[label]`, which can only hit for a name. */
  function NameLookup(nameToId: Dict<string, int>, l: LabelValue): Option<int>
  {
    match l
    case StrLabel(s) => Get(nameToId, s)
    case IntLabel(_) => None
  }

  /** Position `i` exists in the list and its label is one of the model's names. */
  predicate Resolves(nameToId: Dict<string, int>, ls: seq<LabelValue>, i: nat)
  {
    i < |ls| && NameLookup(nameToId, ls[i]).Some?
  }

  /** The items of `{i: label_name_to_id[label_list[i]] for i in range(n)}`,
      evaluated in order and failing at the first index that goes wrong. */
  function ModelOrder(nameToId: Dict<string, int>, ls: seq<LabelValue>, n: nat): (r: Result<seq<(LabelValue, int)>, PrepError>)
    ensures r.Success? <==> forall i :: 0 <= i < n ==> Resolves(nameToId, ls, i)
    ensures r.Success? ==> |r.value| == n &&
                           forall i :: 0 <= i < n ==> Resolves(nameToId, ls, i) && r.value[i] == (IntLabel(i), NameLookup(nameToId, ls[i]).value)
    ensures r == Failure(LabelIndexOutOfRange) ==> n > |ls|
    ensures r == Failure(MissingModelLabel) ==> exists i :: 0 <= i < n && i < |ls| && !Resolves(nameToId, ls, i)
    ensures r.Failure? && n <= |ls| ==> r.error == MissingModelLabel
    ensures r.Failure? ==>
              r.error == if forall i :: 0 <= i < n && i < |ls| ==> Resolves(nameToId, ls, i)
                         then LabelIndexOutOfRange else MissingModelLabel
  {
    if n == 0 then Success([])
    else
      match ModelOrder(nameToId, ls, n - 1)
      case Failure(e) => Failure(e)
      case Success(items) =>
        if n - 1 >= |ls| then
          assert !Resolves(nameToId, ls, n - 1);
          Failure(LabelIndexOutOfRange)
        else
          match NameLookup(nameToId, ls[n - 1])
          case None =>
            assert !Resolves(nameToId, ls, n - 1);
            Failure(MissingModelLabel)
          case Some(v) => Success(items + [(IntLabel(n - 1), v)])
  }

  /** Once the sorted names agree, every label of the list is found among the
      model's names, so the lookup never misses; the comprehension fails only
      when `num_labels` runs past the list. */
  lemma ModelOrderNeverMisses(nameToId: Dict<string, int>, ls: seq<LabelValue>, n: nat)
    requires NamesMatch(Keys(nameToId), ls) == Success(true)
    ensures ModelOrder(nameToId, ls, n) != Failure(MissingModelLabel)
    ensures ModelOrder(nameToId, ls, n).Success? <==> n <= |ls|
  {
    NamesMatchIff(Keys(nameToId), ls);
    forall i | 0 <= i < |ls|
      ensures Resolves(nameToId, ls, i)
    {
      assert Names(ls)[i] == ls[i].s;
      NameFound(nameToId, ls[i].s);
    }
  }

  /** A name among the keys is found by lookup. */
  lemma NameFound(nameToId: Dict<string, int>, s: string)
    requires s in multiset(Keys(nameToId))
    ensures Get(nameToId, s).Some?
  {
    var j :| 0 <= j < |nameToId| && Keys(nameToId)[j] == s;
    assert nameToId[j].0 == s;
  }

  /** The map built from the model's order has exactly the keys `0 .. n-1`. */
  lemma ModelOrderLookup(items: seq<(LabelValue, int)>, n: nat, k: LabelValue)
    requires |items| == n && forall i :: 0 <= i < n ==> items[i].0 == IntLabel(i)
    ensures Get(FromItems(items), k).Some? <==> k.IntLabel? && 0 <= k.i < n
    ensures k.IntLabel? && 0 <= k.i < n ==> Get(FromItems(items), k) == Some(items[k.i].1)
  {
    assert DistinctKeys(items);
    if k.IntLabel? && 0 <= k.i < n {
      LastValueIff(items, k, items[k.i].1);
    }
  }

  // -------------------------------------------------------------- label_to_id

  /** Python's `range(n)` has no elements when `n` is negative. */
  function RangeLength(n: int): nat
  {
    if n < 0 then 0 else n
  }

  /** The three-way choice of `label_to_id`: the model's own order when its
      configuration carries non-default labels for a named classification
      task and those labels match the list; the enumeration of the list for a
      custom dataset; none otherwise. */
  function LabelToId(defaultLabel2Id: Dict<LabelValue, int>, config: LabelConfig, inp: Inputs): (r: Result<Option<Dict<LabelValue, int>>, PrepError>)
    ensures r.Failure? ==> r.error != MissingModelLabel
    ensures r.Failure? ==> inp.task.Some? && !inp.isRegression && !Equal(config.label2id, defaultLabel2Id)
    ensures inp.task.None? ==> r == Success(Some(EnumerateLabels(inp.labelList)))
    ensures inp.isRegression && inp.task.Some? ==> r == Success(None)
    ensures inp.task.Some? && r.Success? && r.value.Some? ==>
              forall k :: Get(r.value.value, k).Some? <==> k.IntLabel? && 0 <= k.i < inp.numLabels
    ensures inp.task.Some? && r.Success? && r.value.Some? ==>
              && !Equal(config.label2id, defaultLabel2Id) && !inp.isRegression
              && LowerNames(config.label2id).Success?
              && NamesMatch(Keys(FromItems(LowerNames(config.label2id).value)), inp.labelList) == Success(true)
    ensures inp.task.Some? && Equal(config.label2id, defaultLabel2Id) ==> r == Success(None)
    ensures inp.task.Some? && !inp.isRegression && !Equal(config.label2id, defaultLabel2Id) ==>
              match LowerNames(config.label2id)
              case Failure(e) => r == Failure(e)
              case Success(lowered) =>
                match NamesMatch(Keys(FromItems(lowered)), inp.labelList)
                case Failure(e) => r == Failure(e)
                case Success(same) =>
                  && (!same ==> r == Success(None))
                  && (same ==> (r.Success? <==> inp.numLabels <= |inp.labelList|) && (r.Success? ==> r.value.Some?))
                  && (same && !r.Success? ==> r == Failure(LabelIndexOutOfRange))
  {
    if !Equal(config.label2id, defaultLabel2Id) && inp.task.Some? && !inp.isRegression then
      match LowerNames(config.label2id)
      case Failure(e) => Failure(e)
      case Success(lowered) =>
        var nameToId := FromItems(lowered);
        match NamesMatch(Keys(nameToId), inp.labelList)
        case Failure(e) => Failure(e)
        case Success(same) =>
          if !same then Success(None)
          else
            var n := RangeLength(inp.numLabels);
            ModelOrderNeverMisses(nameToId, inp.labelList, n);
            match ModelOrder(nameToId, inp.labelList, n)
            case Failure(e) => Failure(e)
            case Success(items) =>
              assert forall k :: Get(FromItems(items), k).Some? <==> k.IntLabel? && 0 <= k.i < inp.numLabels by {
                forall k ensures Get(FromItems(items), k).Some? <==> k.IntLabel? && 0 <= k.i < inp.numLabels {
                  ModelOrderLookup(items, n, k);
                }
              }
              Success(Some(FromItems(items)))
    else if inp.task.None? then Success(Some(EnumerateLabels(inp.labelList)))
    else Success(None)
  }

  /** `label2id`/`id2label` after preparation: the chosen map and its
      inversion; failing that, the enumeration of the list for a named
      classification task; otherwise the configuration as it was. */
  function AssignConfig(config: LabelConfig, labelToId: Option<Dict<LabelValue, int>>, inp: Inputs): (r: LabelConfig)
    ensures labelToId.Some? ==> r.label2id == labelToId.value
    ensures labelToId.None? && (inp.task.None? || inp.isRegression) ==> r == config
    ensures labelToId.None? && inp.task.Some? && !inp.isRegression ==>
              && (forall i :: Get(r.id2label, i) == if 0 <= i < |inp.labelList| then Some(inp.labelList[i]) else None)
              && (forall l :: Get(r.label2id, l).Some? <==> l in inp.labelList)
              && (forall l :: Get(r.label2id, l).Some? ==>
                    0 <= Get(r.label2id, l).value < |inp.labelList| && inp.labelList[Get(r.label2id, l).value] == l)
  {
    match labelToId
    case Some(m) => LabelConfig(m, Invert(m))
    case None =>
      if inp.task.Some? && !inp.isRegression then
        var ls := inp.labelList;
        assert forall i :: Get(IndexLabels(ls), i) == if 0 <= i < |ls| then Some(ls[i]) else None by {
          forall i ensures Get(IndexLabels(ls), i) == if 0 <= i < |ls| then Some(ls[i]) else None {
            IndexLookup(ls, i);
          }
        }
        assert forall l :: Get(EnumerateLabels(ls), l).Some? ==>
                 0 <= Get(EnumerateLabels(ls), l).value < |ls| && ls[Get(EnumerateLabels(ls), l).value] == l by {
          forall l ensures Get(EnumerateLabels(ls), l).Some? ==>
                             0 <= Get(EnumerateLabels(ls), l).value < |ls| && ls[Get(EnumerateLabels(ls), l).value] == l {
            EnumerateLookup(ls, l);
          }
        }
        assert forall l :: Get(EnumerateLabels(ls), l).Some? <==> l in ls by {
          forall l ensures Get(EnumerateLabels(ls), l).Some? <==> l in ls {
            EnumerateLookup(ls, l);
          }
        }
        LabelConfig(EnumerateLabels(ls), IndexLabels(ls))
      else config
  }

  /** When the chosen map gives distinct labels distinct ids, `id2label` undoes
      `label2id`, in both directions. */
  lemma AssignedRoundTrip(config: LabelConfig, m: Dict<LabelValue, int>, inp: Inputs, l: LabelValue, v: int)
    requires DistinctKeys(m) && Injective(m)
    ensures var c := AssignConfig(config, Some(m), inp);
            Get(c.id2label, v) == Some(l) <==> Get(c.label2id, l) == Some(v)
  {
    InvertRoundTrip(m, l, v);
  }

  /** In the fallback for a named classification task, distinct labels make
      the two maps mutual inverses. */
  lemma FallbackRoundTrip(config: LabelConfig, inp: Inputs, l: LabelValue, i: int)
    requires inp.task.Some? && !inp.isRegression && Distinct(inp.labelList)
    ensures var c := AssignConfig(config, None, inp);
            && (Get(c.label2id, l) == Some(i) <==> Get(c.id2label, i) == Some(l))
            && (0 <= i < |inp.labelList| ==>
                  Get(c.id2label, i) == Some(inp.labelList[i]) && Get(c.label2id, inp.labelList[i]) == Some(i))
  {
    FallbackInverse(inp.labelList, l, i);
    if 0 <= i < |inp.labelList| {
      IndexLookup(inp.labelList, i);
      EnumerateDistinct(inp.labelList, i);
    }
  }

  // ---------------------------------------------------------------- pipeline

  /** `preprocess_data` up to the dataset map: the text columns, the label
      map and the configuration it leaves behind. */
  function Preprocess(taskKeys: Dict<string, SentenceKeys>, defaultLabel2Id: Dict<LabelValue, int>, config: LabelConfig, inp: Inputs): (r: Result<Prepared, PrepError>)
    ensures r.Success? ==> SelectKeys(taskKeys, inp.task, inp.trainColumns) == Success(r.value.keys)
    ensures r.Success? ==> LabelToId(defaultLabel2Id, config, inp) == Success(r.value.labelToId)
    ensures r.Success? ==> r.value.config == AssignConfig(config, r.value.labelToId, inp)
    ensures r.Success? && r.value.labelToId.None? && inp.task.Some? && !inp.isRegression ==>
              && (forall i :: Get(r.value.config.id2label, i)
                                == if 0 <= i < |inp.labelList| then Some(inp.labelList[i]) else None)
              && (forall l :: Get(r.value.config.label2id, l).Some? <==> l in inp.labelList)
    ensures r.Success? <==> SelectKeys(taskKeys, inp.task, inp.trainColumns).Success?
                            && LabelToId(defaultLabel2Id, config, inp).Success?
    ensures r.Failure? ==>
              r.error == if SelectKeys(taskKeys, inp.task, inp.trainColumns).Failure?
                         then SelectKeys(taskKeys, inp.task, inp.trainColumns).error
                         else LabelToId(defaultLabel2Id, config, inp).error
    ensures r.Failure? ==> r.error != MissingModelLabel
    ensures inp.task.None? ==> (r.Success? <==> exists i :: 0 <= i < |inp.trainColumns| && inp.trainColumns[i] != "label")
    ensures r.Success? && r.value.labelToId.Some? ==>
              r.value.config == LabelConfig(r.value.labelToId.value, Invert(r.value.labelToId.value))
    ensures r.Success? && inp.task.None? ==> r.value.labelToId == Some(EnumerateLabels(inp.labelList))
    ensures r.Success? && inp.isRegression && inp.task.Some? ==> r.value.labelToId.None? && r.value.config == config
  {
    match SelectKeys(taskKeys, inp.task, inp.trainColumns)
    case Failure(e) => Failure(e)
    case Success(keys) =>
      match LabelToId(defaultLabel2Id, config, inp)
      case Failure(e) => Failure(e)
      case Success(labelToId) => Success(Prepared(keys, labelToId, AssignConfig(config, labelToId, inp)))
  }

  /** When a named classification task ends up without a label map, the
      configuration `preprocess_data` leaves behind enumerates the label
      list: for distinct labels, position `i` and `label_list[i]` map to each
      other, and the two maps are mutual inverses. */
  lemma NamedFallbackConfig(taskKeys: Dict<string, SentenceKeys>, defaultLabel2Id: Dict<LabelValue, int>,
                            config: LabelConfig, inp: Inputs, l: LabelValue, i: int)
    requires Preprocess(taskKeys, defaultLabel2Id, config, inp).Success?
    requires Preprocess(taskKeys, defaultLabel2Id, config, inp).value.labelToId.None?
    requires inp.task.Some? && !inp.isRegression && Distinct(inp.labelList)
    ensures var c := Preprocess(taskKeys, defaultLabel2Id, config, inp).value.config;
            && (Get(c.label2id, l) == Some(i) <==> Get(c.id2label, i) == Some(l))
            && (0 <= i < |inp.labelList| ==>
                  Get(c.id2label, i) == Some(inp.labelList[i]) && Get(c.label2id, inp.labelList[i]) == Some(i))
  {
    FallbackRoundTrip(config, inp, l, i);
  }

  /** For a custom dataset the configuration always round-trips: every listed
      label's id maps back to that label, even when the list repeats one. */
  lemma CustomConfigRoundTrip(taskKeys: Dict<string, SentenceKeys>, defaultLabel2Id: Dict<LabelValue, int>,
                              config: LabelConfig, inp: Inputs, l: LabelValue)
    requires inp.task.None? && Preprocess(taskKeys, defaultLabel2Id, config, inp).Success?
    requires l in inp.labelList
    ensures var c := Preprocess(taskKeys, defaultLabel2Id, config, inp).value.config;
            Get(c.label2id, l).Some? && Get(c.id2label, Get(c.label2id, l).value) == Some(l)
  {
    var m := EnumerateLabels(inp.labelList);
    EnumerateLookup(inp.labelList, l);
    EnumerateInjective(inp.labelList);
    InvertRoundTrip(m, l, Get(m, l).value);
  }

  /** The label map of a custom dataset is injective with ids inside the list. */
  lemma CustomLabelMap(taskKeys: Dict<string, SentenceKeys>, defaultLabel2Id: Dict<LabelValue, int>,
                       config: LabelConfig, inp: Inputs, k: LabelValue)
    requires inp.task.None? && Preprocess(taskKeys, defaultLabel2Id, config, inp).Success?
    ensures var m := Preprocess(taskKeys, defaultLabel2Id, config, inp).value.labelToId.value;
            Injective(m) && (Get(m, k).Some? ==> 0 <= Get(m, k).value < |inp.labelList|)
  {
    EnumerateLookup(inp.labelList, k);
    EnumerateInjective(inp.labelList);
  }

  // ------------------------------------------------------------- features

  /** `[label_to_id.get(l) for l in labels]`. */
  function MapLabels(m: Dict<LabelValue, int>, ls: seq<LabelValue>): (r: seq<Option<int>>)
    ensures |r| == |ls|
    ensures forall i :: 0 <= i < |ls| ==> (r[i].Some? <==> exists j :: 0 <= j < |m| && m[j].0 == ls[i])
    ensures forall i :: 0 <= i < |ls| ==> r[i] == Get(m, ls[i])
  {
    seq(|ls|, i requires 0 <= i < |ls| => Get(m, ls[i]))
  }

  /** The part of `generate_features` that is not the tokenizer: which
      columns it reads and what it writes as `labels`. */
  function GenerateFeatures(keys: SentenceKeys, labelToId: Option<Dict<LabelValue, int>>, batch: Batch): (r: Features)
    ensures |r.texts| == (if keys.second.None? then 1 else 2) && r.texts[0] == keys.first
    ensures keys.second.Some? ==> r.texts[1] == keys.second.value
    ensures r.labels.NoLabels? <==> batch.labels.None?
    ensures r.labels.Copied? <==> batch.labels.Some? && labelToId.None?
    ensures r.labels.Copied? ==> r.labels.raw == batch.labels.value
    ensures r.labels.Mapped? ==> |r.labels.ids| == |batch.labels.value|
    ensures r.labels.Mapped? ==>
              && labelToId.Some? && batch.labels.Some?
              && forall i :: 0 <= i < |r.labels.ids| ==> r.labels.ids[i] == Get(labelToId.value, batch.labels.value[i])
  {
    var texts := TextColumns(keys);
    match batch.labels
    case None => Features(texts, NoLabels)
    case Some(ls) =>
      match labelToId
      case Some(m) => Features(texts, Mapped(MapLabels(m, ls)))
      case None => Features(texts, Copied(ls))
  }

  /** For a custom dataset each example's label becomes a position where it
      is listed, and a label outside the list becomes None. */
  lemma CustomFeatureLabels(taskKeys: Dict<string, SentenceKeys>, defaultLabel2Id: Dict<LabelValue, int>,
                            config: LabelConfig, inp: Inputs, ex: seq<LabelValue>, i: nat)
    requires inp.task.None? && Preprocess(taskKeys, defaultLabel2Id, config, inp).Success?
    requires i < |ex|
    ensures var p := Preprocess(taskKeys, defaultLabel2Id, config, inp).value;
            var f := GenerateFeatures(p.keys, p.labelToId, Batch(Some(ex)));
            && f.labels.Mapped? && |f.labels.ids| == |ex|
            && (f.labels.ids[i].None? <==> ex[i] !in inp.labelList)
            && (f.labels.ids[i].Some? ==>
                  0 <= f.labels.ids[i].value < |inp.labelList| && inp.labelList[f.labels.ids[i].value] == ex[i])
  {
    EnumerateLookup(inp.labelList, ex[i]);
  }

  /** Under the conditions of `ModelOrderAdopted`, the chosen map is the
      model-order comprehension. */
  lemma AdoptedMap(defaultLabel2Id: Dict<LabelValue, int>, config: LabelConfig, inp: Inputs)
    requires inp.task.Some? && !inp.isRegression && !Equal(config.label2id, defaultLabel2Id)
    requires LowerNames(config.label2id).Success?
    requires forall i :: 0 <= i < |inp.labelList| ==> inp.labelList[i].StrLabel?
    requires multiset(Keys(FromItems(LowerNames(config.label2id).value))) == multiset(Names(inp.labelList))
    requires 0 <= inp.numLabels <= |inp.labelList|
    ensures var nameToId := FromItems(LowerNames(config.label2id).value);
            && ModelOrder(nameToId, inp.labelList, inp.numLabels).Success?
            && LabelToId(defaultLabel2Id, config, inp)
               == Success(Some(FromItems(ModelOrder(nameToId, inp.labelList, inp.numLabels).value)))
  {
    var nameToId := FromItems(LowerNames(config.label2id).value);
    NamesMatchIff(Keys(nameToId), inp.labelList);
    ModelOrderNeverMisses(nameToId, inp.labelList, inp.numLabels);
  }

  /** For a named classification task whose model carries its own labels,
      the model's order is adopted as soon as the lower-cased names are the
      listed names: class index `k` then maps to the model's id for the
      `k`-th listed name, and any other label (a test split's -1) to None. */
  lemma ModelOrderAdopted(defaultLabel2Id: Dict<LabelValue, int>, config: LabelConfig, inp: Inputs, l: LabelValue)
    requires inp.task.Some? && !inp.isRegression && !Equal(config.label2id, defaultLabel2Id)
    requires LowerNames(config.label2id).Success?
    requires forall i :: 0 <= i < |inp.labelList| ==> inp.labelList[i].StrLabel?
    requires multiset(Keys(FromItems(LowerNames(config.label2id).value))) == multiset(Names(inp.labelList))
    requires 0 <= inp.numLabels <= |inp.labelList|
    ensures var r := LabelToId(defaultLabel2Id, config, inp);
            && r.Success? && r.value.Some?
            && (l.IntLabel? && 0 <= l.i < inp.numLabels ==>
                  Get(r.value.value, l) == Get(FromItems(LowerNames(config.label2id).value), inp.labelList[l.i].s))
            && (!(l.IntLabel? && 0 <= l.i < inp.numLabels) ==> Get(r.value.value, l) == None)
  {
    var nameToId := FromItems(LowerNames(config.label2id).value);
    AdoptedMap(defaultLabel2Id, config, inp);
    ModelOrderLookup(ModelOrder(nameToId, inp.labelList, inp.numLabels).value, inp.numLabels, l);
  }

  /** For a named classification task whose model carries matching labels of
      its own, an example's class index `k < num_labels` becomes the model's
      id for the `k`-th listed name, and a test split's -1, like any other
      label, becomes None. */
  lemma NamedFeatureLabels(taskKeys: Dict<string, SentenceKeys>, defaultLabel2Id: Dict<LabelValue, int>,
                           config: LabelConfig, inp: Inputs, ex: seq<LabelValue>, i: nat)
    requires inp.task.Some? && !inp.isRegression && !Equal(config.label2id, defaultLabel2Id)
    requires LowerNames(config.label2id).Success?
    requires forall j :: 0 <= j < |inp.labelList| ==> inp.labelList[j].StrLabel?
    requires multiset(Keys(FromItems(LowerNames(config.label2id).value))) == multiset(Names(inp.labelList))
    requires 0 <= inp.numLabels <= |inp.labelList|
    requires Preprocess(taskKeys, defaultLabel2Id, config, inp).Success?
    requires i < |ex|
    ensures var p := Preprocess(taskKeys, defaultLabel2Id, config, inp).value;
            var f := GenerateFeatures(p.keys, p.labelToId, Batch(Some(ex)));
            var nameToId := FromItems(LowerNames(config.label2id).value);
            && f.labels.Mapped? && |f.labels.ids| == |ex|
            && (ex[i].IntLabel? && 0 <= ex[i].i < inp.numLabels ==>
                  f.labels.ids[i] == Get(nameToId, inp.labelList[ex[i].i].s) && f.labels.ids[i].Some?)
            && (ex[i] == IntLabel(-1) ==> f.labels.ids[i] == None)
            && (!(ex[i].IntLabel? && 0 <= ex[i].i < inp.numLabels) ==> f.labels.ids[i] == None)
  {
    ModelOrderAdopted(defaultLabel2Id, config, inp, ex[i]);
  }
}

=== FILE: pydict.dfy ===
/** Python's `dict`: an insertion-ordered list of items. Assigning to an
    existing key replaces its value in place; a new key goes to the end. Dict
    comprehensions and inversions in `preprocess_data` depend on this order when keys
    or values collide, so the model keeps it. */
module PyDict {
  import opened Wrappers

  type Dict<K, V> = seq<(K, V)>

  /** The keys of `d` in iteration order. */
  function Keys<K, V>(d: Dict<K, V>): seq<K>
  {
    seq(|d|, i requires 0 <= i < |d| => d[i].0)
  }

  /** The items, each turned round: what `{v: k for k, v in d.items()}` iterates over. */
  function Swap<K, V>(d: Dict<K, V>): seq<(V, K)>
  {
    seq(|d|, i requires 0 <= i < |d| => (d[i].1, d[i].0))
  }

  /** Every dictionary Python can build has pairwise distinct keys. */
  ghost predicate DistinctKeys<K, V>(d: Dict<K, V>)
  {
    forall i, j :: 0 <= i < j < |d| ==> d[i].0 != d[j].0
  }

  /** No two items share a value, so inverting the dictionary loses nothing. */
  ghost predicate Injective<K, V>(d: Dict<K, V>)
  {
    forall i, j :: 0 <= i < j < |d| ==> d[i].1 != d[j].1
  }

  /** `d.get(k)`: the value stored under `k`, or None when `k` is missing. */
  function Get<K(==), V>(d: Dict<K, V>, k: K): (r: Option<V>)
    ensures r.None? <==> forall i :: 0 <= i < |d| ==> d[i].0 != k
    ensures r.Some? ==> exists i :: 0 <= i < |d| && d[i] == (k, r.value)
  {
    if |d| == 0 then None
    else if d[0].0 == k then Some(d[0].1)
    else
      var r := Get(d[1..], k);
      assert forall i :: 0 <= i < |d| - 1 ==> d[1..][i] == d[i + 1];
      r
  }

  /** `d[k] = v`. */
  function Put<K(==,!new), V>(d: Dict<K, V>, k: K, v: V): (r: Dict<K, V>)
    ensures Get(r, k) == Some(v)
    ensures forall k' :: k' != k ==> Get(r, k') == Get(d, k')
  {
    if |d| == 0 then [(k, v)]
    else if d[0].0 == k then
      var r := [(k, v)] + d[1..];
      assert r[1..] == d[1..];
      r
    else
      var rest := Put(d[1..], k, v);
      var r := [d[0]] + rest;
      assert r[1..] == rest;
      r
  }

  /** Assigning to a dictionary keeps its keys distinct. */
  lemma {:induction false} PutKeepsKeysDistinct<K(!new), V>(d: Dict<K, V>, k: K, v: V)
    requires DistinctKeys(d)
    ensures DistinctKeys(Put(d, k, v))
  {
    if |d| > 0 && d[0].0 != k {
      var rest := Put(d[1..], k, v);
      PutKeepsKeysDistinct(d[1..], k, v);
      var r := Put(d, k, v);
      assert r == [d[0]] + rest;
      forall j | 1 <= j < |r|
        ensures r[0].0 != r[j].0
      {
        var x := rest[j - 1].0;
        assert r[j] == rest[j - 1];
        assert Get(rest, x).Some?;
        if x != k {
          assert Get(d[1..], x).Some?;
          var i :| 0 <= i < |d[1..]| && d[1..][i].0 == x;
          assert d[i + 1].0 == x;
        }
      }
    }
  }

  /** The value of the last item whose key is `k`: what a later assignment to
      the same key leaves behind. */
  function LastValue<K(==), V>(items: seq<(K, V)>, k: K): (r: Option<V>)
    ensures r.Some? ==> exists i :: 0 <= i < |items| && items[i] == (k, r.value)
    ensures r.None? <==> forall i :: 0 <= i < |items| ==> items[i].0 != k
  {
    if |items| == 0 then None
    else if items[|items| - 1].0 == k then Some(items[|items| - 1].1)
    else LastValue(items[..|items| - 1], k)
  }

  /** `{k: v for k, v in items}`: later items overwrite earlier ones. */
  function FromItems<K(==,!new), V>(items: seq<(K, V)>): (d: Dict<K, V>)
    ensures DistinctKeys(d)
    ensures forall k :: Get(d, k) == LastValue(items, k)
  {
    if |items| == 0 then []
    else
      var pre := FromItems(items[..|items| - 1]);
      PutKeepsKeysDistinct(pre, items[|items| - 1].0, items[|items| - 1].1);
      Put(pre, items[|items| - 1].0, items[|items| - 1].1)
  }

  /** `{v: k for k, v in d.items()}`. */
  function Invert<K(==), V(==,!new)>(d: Dict<K, V>): Dict<V, K>
  {
    FromItems(Swap(d))
  }

  /** Python's `a == b` on dictionaries: the same keys with the same values,
      whatever the order. */
  predicate Equal<K(==), V(==)>(a: Dict<K, V>, b: Dict<K, V>)
  {
    && (forall i :: 0 <= i < |a| ==> Get(b, a[i].0) == Some(a[i].1))
    && (forall j :: 0 <= j < |b| ==> Get(a, b[j].0) == Some(b[j].1))
  }

  /** In a dictionary, each item is found by its own key. */
  lemma {:induction false} GetItem<K, V>(d: Dict<K, V>, i: nat)
    requires DistinctKeys(d) && i < |d|
    ensures Get(d, d[i].0) == Some(d[i].1)
  {
    if i > 0 {
      assert d[0].0 != d[i].0;
      assert d[1..][i - 1] == d[i];
      GetItem(d[1..], i - 1);
    }
  }

  /** In a dictionary, a lookup succeeds with `v` exactly when `(k, v)` is an item. */
  lemma GetIff<K, V>(d: Dict<K, V>, k: K, v: V)
    requires DistinctKeys(d)
    ensures Get(d, k) == Some(v) <==> exists i :: 0 <= i < |d| && d[i] == (k, v)
  {
    if i :| 0 <= i < |d| && d[i] == (k, v) {
      GetItem(d, i);
    }
  }

  /** Two dictionaries compare equal exactly when every lookup agrees. */
  lemma EqualIffSameLookups<K, V>(a: Dict<K, V>, b: Dict<K, V>)
    requires DistinctKeys(a) && DistinctKeys(b)
    ensures Equal(a, b) <==> forall k :: Get(a, k) == Get(b, k)
  {
    if Equal(a, b) {
      forall k
        ensures Get(a, k) == Get(b, k)
      {
        if Get(a, k).Some? {
          var i :| 0 <= i < |a| && a[i] == (k, Get(a, k).value);
        }
      }
    } else {
      var k;
      if i :| 0 <= i < |a| && Get(b, a[i].0) != Some(a[i].1) {
        GetItem(a, i);
        k := a[i].0;
      } else {
        var j :| 0 <= j < |b| && Get(a, b[j].0) != Some(b[j].1);
        GetItem(b, j);
        k := b[j].0;
      }
      assert Get(a, k) != Get(b, k);
    }
  }

  /** A comprehension over items with pairwise distinct values builds a
      dictionary with pairwise distinct values: a key whose value was
      overwritten drops out together with that value. */
  lemma FromItemsInjective<K(!new), V>(items: seq<(K, V)>)
    requires Injective(items)
    ensures Injective(FromItems(items))
  {
    var d := FromItems(items);
    forall p, q | 0 <= p < q < |d|
      ensures d[p].1 != d[q].1
    {
      GetItem(d, p);
      GetItem(d, q);
      var a :| 0 <= a < |items| && items[a] == (d[p].0, d[p].1);
      var b :| 0 <= b < |items| && items[b] == (d[q].0, d[q].1);
      assert d[p].0 != d[q].0;
    }
  }

  /** Inverting a dictionary whose values are distinct gives its exact
      inverse: `inv[v] == k` exactly when `d[k] == v`. */
  lemma InvertRoundTrip<K, V(!new)>(d: Dict<K, V>, k: K, v: V)
    requires DistinctKeys(d) && Injective(d)
    ensures Get(Invert(d), v) == Some(k) <==> Get(d, k) == Some(v)
  {
    var s := Swap(d);
    assert DistinctKeys(s);
    LastValueIff(s, v, k);
    GetIff(d, k, v);
    if i :| 0 <= i < |d| && d[i] == (k, v) {
      assert s[i] == (v, k);
    }
    if i :| 0 <= i < |s| && s[i] == (v, k) {
      assert d[i] == (k, v);
    }
  }

  /** In a list of items with distinct keys, the last value of `k` is `v`
      exactly when `(k, v)` is an item. */
  lemma {:induction false} LastValueIff<K, V>(items: seq<(K, V)>, k: K, v: V)
    requires DistinctKeys(items)
    ensures LastValue(items, k) == Some(v) <==> exists i :: 0 <= i < |items| && items[i] == (k, v)
  {
    if |items| > 0 {
      var n := |items| - 1;
      var pre := items[..n];
      LastValueIff(pre, k, v);
      if items[n].0 != k {
        if i :| 0 <= i < |items| && items[i] == (k, v) {
          assert i < n && pre[i] == items[i];
        }
      } else if i :| 0 <= i < |items| && items[i] == (k, v) {
        assert i == n;
      }
    }
  }
}

=== FILE: pystr.dfy ===
/** The pieces of Python's `str` that the label check relies on:
    `str.lower()` and the `<=` ordering that `sorted` uses on strings. */
module PyStr {

  /** `str.lower()` on one character, for the ASCII range. */
  function LowerChar(c: char): char
  {
    if 'A' <= c <= 'Z' then (c as int + 32) as char else c
  }

  /** `s.lower()`, character by character. */
  function Lower(s: string): string
  {
    seq(|s|, i requires 0 <= i < |s| => LowerChar(s[i]))
  }

  /** Python's `a <= b` on strings: lexicographic by code point, with a proper
      prefix ordered before the longer string. */
  predicate Le(a: string, b: string)
  {
    |a| == 0 || (|b| > 0 && (a[0] < b[0] || (a[0] == b[0] && Le(a[1..], b[1..]))))
  }

  lemma {:induction false} LeTotal(a: string, b: string)
    ensures Le(a, b) || Le(b, a)
  {
    if |a| > 0 && |b| > 0 && a[0] == b[0] {
      LeTotal(a[1..], b[1..]);
    }
  }

  lemma {:induction false} LeTransitive(a: string, b: string, c: string)
    requires Le(a, b) && Le(b, c)
    ensures Le(a, c)
  {
    if |a| > 0 && a[0] == b[0] && b[0] == c[0] {
      LeTransitive(a[1..], b[1..], c[1..]);
    }
  }

  lemma {:induction false} LeAntisymmetric(a: string, b: string)
    requires Le(a, b) && Le(b, a)
    ensures a == b
  {
    if |a| > 0 {
      LeAntisymmetric(a[1..], b[1..]);
      assert a == [a[0]] + a[1..] && b == [b[0]] + b[1..];
    }
  }

  ghost predicate Sorted(s: seq<string>)
  {
    forall i, j :: 0 <= i < j < |s| ==> Le(s[i], s[j])
  }

  lemma SortedCons(a: string, t: seq<string>)
    requires Sorted(t)
    requires forall j :: 0 <= j < |t| ==> Le(a, t[j])
    ensures Sorted([a] + t)
  {
    forall i, j | 0 <= i < j < |[a] + t| ensures Le(([a] + t)[i], ([a] + t)[j]) {
      if i > 0 {
        assert ([a] + t)[i] == t[i - 1];
      }
      assert ([a] + t)[j] == t[j - 1];
    }
  }

  lemma LowerBound(x: string, s: seq<string>)
    requires Sorted(s) && |s| > 0 && Le(x, s[0])
    ensures forall j :: 0 <= j < |s| ==> Le(x, s[j])
  {
    forall j | 0 <= j < |s| ensures Le(x, s[j]) {
      if j > 0 { LeTransitive(x, s[0], s[j]); }
    }
  }

  lemma LowerBoundKept(lo: string, s: seq<string>, x: string, r: seq<string>)
    requires forall j :: 0 <= j < |s| ==> Le(lo, s[j])
    requires Le(lo, x) && multiset(r) == multiset(s) + multiset{x}
    ensures forall j :: 0 <= j < |r| ==> Le(lo, r[j])
  {
    forall j | 0 <= j < |r| ensures Le(lo, r[j]) {
      assert r[j] in multiset(r);
      if r[j] != x {
        assert r[j] in multiset(s);
        var i :| 0 <= i < |s| && s[i] == r[j];
      }
    }
  }

  /** Puts `x` into its place in an already sorted list. */
  function Insert(x: string, s: seq<string>): (r: seq<string>)
    requires Sorted(s)
    ensures multiset(r) == multiset(s) + multiset{x}
    ensures Sorted(r)
  {
    if |s| == 0 then [x]
    else if Le(x, s[0]) then
      LowerBound(x, s);
      SortedCons(x, s);
      [x] + s
    else
      var tail := s[1..];
      assert s == [s[0]] + tail;
      assert forall j :: 0 <= j < |tail| ==> Le(s[0], tail[j]) by {
        forall j | 0 <= j < |tail| ensures Le(s[0], tail[j]) {
          assert tail[j] == s[j + 1];
        }
      }
      var rest := Insert(x, tail);
      LeTotal(x, s[0]);
      LowerBoundKept(s[0], tail, x, rest);
      SortedCons(s[0], rest);
      [s[0]] + rest
  }

  /** `sorted(s)` on a list of strings. */
  function Sort(s: seq<string>): (r: seq<string>)
    ensures Sorted(r)
    ensures multiset(r) == multiset(s)
  {
    if |s| == 0 then []
    else
      assert s == [s[0]] + s[1..];
      Insert(s[0], Sort(s[1..]))
  }

  /** Two non-empty sorted lists holding the same strings start alike. */
  lemma SortedSameHead(x: seq<string>, y: seq<string>)
    requires Sorted(x) && Sorted(y) && multiset(x) == multiset(y) && |x| > 0
    ensures |y| > 0 && x[0] == y[0]
  {
    assert x[0] in multiset(y);
    assert y[0] in multiset(x);
    var i :| 0 <= i < |y| && y[i] == x[0];
    var j :| 0 <= j < |x| && x[j] == y[0];
    if x[0] != y[0] {
      assert Le(y[0], y[i]) && Le(x[0], x[j]);
      LeAntisymmetric(x[0], y[0]);
    }
  }

  /** Dropping the head of a non-empty list removes one copy of it. */
  lemma DropHead(x: seq<string>)
    requires |x| > 0
    ensures multiset(x[1..]) == multiset(x) - multiset{x[0]}
    ensures Sorted(x) ==> Sorted(x[1..])
  {
    assert x == [x[0]] + x[1..];
  }

  /** Two sorted lists holding the same strings are the same list. */
  lemma {:induction false} SortedUnique(x: seq<string>, y: seq<string>)
    requires Sorted(x) && Sorted(y) && multiset(x) == multiset(y)
    ensures x == y
  {
    if |x| > 0 {
      SortedSameHead(x, y);
      DropHead(x);
      DropHead(y);
      SortedUnique(x[1..], y[1..]);
      assert x == [x[0]] + x[1..] && y == [y[0]] + y[1..];
    } else {
      assert |y| == |multiset(y)|;
    }
  }

  /** `sorted(a) == sorted(b)` holds exactly when `a` and `b` hold the same
      strings the same number of times. */
  lemma SortedEqualIff(a: seq<string>, b: seq<string>)
    ensures Sort(a) == Sort(b) <==> multiset(a) == multiset(b)
  {
    if multiset(a) == multiset(b) {
      SortedUnique(Sort(a), Sort(b));
    }
  }
}

=== FILE: trainer.dfy ===
/** One training epoch and one validation epoch of the fine-tuning loop, as
    the sequence of calls the orchestrator makes on its collaborators (model,
    optimizer, scheduler, progress bar, pruner, metric, logger) together with
    the losses and learning rates it records. Tensors are opaque; every
    collaborator answer the loop depends on is an input. */
module Trainer {
  import opened Wrappers
  import opened Accumulation
  import Distill

  /** How the training loss is formed, fixed for a run: the task loss, or the
      KD composite against a teacher. The KD sub-loss functions are optional
      arguments of `Trainer.train` and are checked on every step. */
  datatype LossMode<!T> =
    | Plain
    | Distillation(beginLayer: int, clsLoss: Option<(T, T) -> real>, regLoss: Option<(T, T) -> real>)

  /** The configuration read by the loop: the accumulation window, the
      progress-line stride, whether gradients are clipped, whether a pruner
      is attached. */
  datatype Config = Config(window: int, printFreq: int, clipGrad: bool, hasPruner: bool)

  /** What one training step gets back from its collaborators: the student's
      and the teacher's forward outputs, whether the batch carries a
      "labels" column, the learning rate read from the optimizer, whether
      `prune()` returned a sparsity, and what `_update_mask_conditions()`
      answered. */
  datatype StepInput<T> = StepInput(student: Distill.ModelOutput<T>, teacher: Distill.ModelOutput<T>,
                                    labels: bool, lr: real, pruneReports: bool, maskDue: bool)

  /** The calls and records one epoch makes, in the order it makes them. */
  datatype Event =
    | TrainMode | EvalMode
    | Forward | TeacherForwardNoGrad
    | RecordLoss | Backward | ClipGrad | MeasureGradNorm | RecordLr
    | OptimizerStep | SchedulerStep | ZeroGrad | ProgressTick
    | Prune | LogCurrentSparsity | MaskCheck | SparsityReport
    | GatherPredictions | GatherReferences | AddBatch
    | LogStep | Compute

  /** Why an epoch aborts: the KD assertion, a missing task loss, a division
      by zero (window, print stride, or an epoch without steps), a batch
      without labels handed to the metric, or `.item()` on a KD sub-loss
      that is still a float. */
  datatype TrainError =
    | KdLossUnset | MissingLoss(step: nat) | ZeroWindow | ZeroPrintFreq | EmptyEpoch
    | MissingLabels(step: nat) | KdItemOnFloat(step: nat)

  /** The raw loss of a step and, under KD, its three sub-losses. */
  datatype StepLossValue = StepLossValue(raw: real, parts: Option<Distill.KdParts>)

  /** The structured content of a training progress line. */
  datatype LogLine = LogLine(step: nat, lr: real, lossRaw: real, loss: real, kd: Option<Distill.KdValues>)

  datatype StepRecord = StepRecord(events: seq<Event>, loss: real, lr: real, log: Option<LogLine>)

  /** A finished training epoch: the events of every step, the whole trace,
      `batch_loss`, `step_lr`, the progress lines and the mean loss. */
  datatype TrainResult = TrainResult(steps: seq<seq<Event>>, trace: seq<Event>, batchLoss: seq<real>,
                                     stepLr: seq<real>, logs: seq<Option<LogLine>>, trainLoss: real)

  datatype ValRecord = ValRecord(events: seq<Event>, loss: real)

  datatype ValResult = ValResult(steps: seq<seq<Event>>, trace: seq<Event>, batchLoss: seq<real>, valLoss: real)

  // ---------------------------------------------------------------- helpers

  /** How often `e` occurs in `t`. */
  function Count(t: seq<Event>, e: Event): nat
  {
    if |t| == 0 then 0 else Count(t[..|t| - 1], e) + (if t[|t| - 1] == e then 1 else 0)
  }

  lemma {:induction false} CountAppend(a: seq<Event>, b: seq<Event>, e: Event)
    ensures Count(a + b, e) == Count(a, e) + Count(b, e)
  {
    if |b| > 0 {
      assert (a + b)[..|a + b| - 1] == a + b[..|b| - 1];
      CountAppend(a, b[..|b| - 1], e);
    } else {
      assert a + b == a;
    }
  }

  function Flatten(steps: seq<seq<Event>>): seq<Event>
  {
    if |steps| == 0 then [] else Flatten(steps[..|steps| - 1]) + steps[|steps| - 1]
  }

  /** Python's `sum`, left to right. */
  function Sum(xs: seq<real>): real
  {
    if |xs| == 0 then 0.0 else Sum(xs[..|xs| - 1]) + xs[|xs| - 1]
  }

  /** A raw loss divided by the accumulation window. */
  function Scale(raw: real, window: int): (loss: real)
    requires window != 0
    ensures loss * (window as real) == raw
  {
    raw / (window as real)
  }

  // --------------------------------------------------------------- the loss

  /** The raw loss of one training step. Plain mode takes the model's task
      loss (dividing a missing one fails); KD mode first asserts that both
      sub-loss functions are set, then composes the KD loss as the trainer
      writes it and ignores the task loss. */
  function StepLoss<T>(mode: LossMode<T>, s: nat, x: StepInput<T>): (r: Result<StepLossValue, TrainError>)
    ensures r.Success? <==> match mode
                            case Plain => x.student.loss.Some?
                            case Distillation(_, cls, reg) => cls.Some? && reg.Some?
    ensures r.Failure? ==> r.error == if mode.Plain? then MissingLoss(s) else KdLossUnset
    ensures r.Success? && mode.Plain? ==> r.value == StepLossValue(x.student.loss.value, None)
    ensures r.Success? && mode.Distillation? ==>
              var p := Distill.ComposeAsWritten(mode.clsLoss.value, mode.regLoss.value, mode.beginLayer, x.student, x.teacher);
              && r.value.parts == Some(p)
              && r.value.raw == p.logit.v + p.hidden.v + p.attn.v
  {
    match mode
    case Plain =>
      if x.student.loss.None? then Failure(MissingLoss(s))
      else Success(StepLossValue(x.student.loss.value, None))
    case Distillation(begin, cls, reg) =>
      if cls.None? || reg.None? then Failure(KdLossUnset)
      else
        var p := Distill.ComposeAsWritten(cls.value, reg.value, begin, x.student, x.teacher);
        Success(StepLossValue(Distill.Raw(p), Some(p)))
  }

  /** In KD mode the task loss the student reports plays no part. */
  lemma KdIgnoresTaskLoss<T>(mode: LossMode<T>, s: nat, x: StepInput<T>, other: Option<real>)
    requires mode.Distillation?
    ensures StepLoss(mode, s, x) == StepLoss(mode, s, x.(student := x.student.(loss := other)))
  {
  }

  // ------------------------------------------------------------- one step

  /** `[e]` when `b` holds, nothing otherwise. */
  function Optional(b: bool, e: Event): seq<Event>
  {
    if b then [e] else []
  }

  /** Recording the loss, the backward pass, the gradient norm (clipped or
      only measured) and reading the learning rate. */
  function GradEvents(clip: bool): seq<Event>
  {
    [RecordLoss, Backward, if clip then ClipGrad else MeasureGradNorm, RecordLr]
  }

  /** Gathering predictions and references and feeding them to the metric. */
  const MetricEvents: seq<Event> := [GatherPredictions, GatherReferences, AddBatch]

  /** The pruner hooks of an update step: `prune()`, its sparsity line when it
      returned one, `_update_mask_conditions()`, and `sparsity()` when that
      answered true. Without a pruner, nothing. */
  function PrunerHooks(hasPruner: bool, reports: bool, due: bool): seq<Event>
  {
    if !hasPruner then []
    else [Prune] + Optional(reports, LogCurrentSparsity) + [MaskCheck] + Optional(due, SparsityReport)
  }

  /** What an update step does after the backward pass. */
  function UpdateEvents(hasPruner: bool, reports: bool, due: bool): seq<Event>
  {
    [OptimizerStep, SchedulerStep, ZeroGrad, ProgressTick] + PrunerHooks(hasPruner, reports, due)
  }

  /** The update group on an update step, nothing otherwise. */
  function UpdateGroup(update: bool, hasPruner: bool, reports: bool, due: bool): seq<Event>
  {
    if update then UpdateEvents(hasPruner, reports, due) else []
  }

  /** A step up to reading the learning rate: the forward passes and the
      backward half. */
  function StepHead(kd: bool, clip: bool): seq<Event>
  {
    [Forward] + Optional(kd, TeacherForwardNoGrad) + GradEvents(clip)
  }

  /** A step from the update group on: the update (when due), the metric
      batch and the progress line (when due). */
  function StepTail(update: bool, hasPruner: bool, reports: bool, due: bool, logged: bool): seq<Event>
  {
    UpdateGroup(update, hasPruner, reports, due) + MetricEvents + Optional(logged, LogStep)
  }

  /** The events of one training step. */
  function StepEvents<T>(cfg: Config, kd: bool, update: bool, logged: bool, x: StepInput<T>): seq<Event>
  {
    StepHead(kd, cfg.clipGrad) + StepTail(update, cfg.hasPruner, x.pruneReports, x.maskDue, logged)
  }

  /** Whether the KD part of a progress line for `x` can be read: both the
      hidden-state zip and the attention zip visit at least one pair, so
      neither sum is still the float `0.`. Plain mode writes no KD part. */
  predicate KdReadable<T>(mode: LossMode<T>, x: StepInput<T>)
  {
    mode.Distillation? ==>
      && |Distill.LayerPairs(x.student.hidden, x.teacher.hidden, mode.beginLayer)| > 0
      && |Distill.LayerPairs(x.student.attentions, x.teacher.attentions, mode.beginLayer)| > 0
  }

  /** Step `s` of an epoch of `n` steps. The loss is divided by the window
      before it is recorded; the update test divides by the window, the
      metric reads the batch's labels, the logging test divides by the print
      stride, and a KD progress line calls `.item()` on its three sub-losses;
      the first of these that fails aborts the step. */
  function Step<T>(cfg: Config, mode: LossMode<T>, n: nat, s: nat, x: StepInput<T>): (r: Result<StepRecord, TrainError>)
    ensures r.Success? <==> && StepLoss(mode, s, x).Success? && cfg.window != 0 && x.labels && cfg.printFreq != 0
                            && (ShouldLog(s, cfg.printFreq) ==> KdReadable(mode, x))
    ensures StepLoss(mode, s, x).Failure? ==> r == Failure(StepLoss(mode, s, x).error)
    ensures r.Failure? && StepLoss(mode, s, x).Success? ==>
              r.error == if cfg.window == 0 then ZeroWindow
                         else if !x.labels then MissingLabels(s)
                         else if cfg.printFreq == 0 then ZeroPrintFreq
                         else KdItemOnFloat(s)
    ensures r.Success? ==> r.value.loss == Scale(StepLoss(mode, s, x).value.raw, cfg.window)
    ensures r.Success? ==> r.value.lr == x.lr
  {
    match StepLoss(mode, s, x)
    case Failure(e) => Failure(e)
    case Success(l) =>
      if cfg.window == 0 then Failure(ZeroWindow)
      else if !x.labels then Failure(MissingLabels(s))
      else if cfg.printFreq == 0 then Failure(ZeroPrintFreq)
      else
        var loss := Scale(l.raw, cfg.window);
        var logged := ShouldLog(s, cfg.printFreq);
        var kd := if l.parts.Some? then Distill.Telemetry(l.parts.value) else None;
        if logged && l.parts.Some? && kd.None? then Failure(KdItemOnFloat(s))
        else
          Success(StepRecord(
            StepEvents(cfg, mode.Distillation?, ShouldUpdate(s, n, cfg.window), logged, x),
            loss, x.lr,
            if logged then Some(LogLine(s, x.lr, l.raw, loss, kd)) else None))
  }

  /** A successful step writes a progress line exactly on the print stride,
      holding the step, its learning rate, both losses and, under KD and only
      then, the three sub-losses, which add up to the raw loss. */
  lemma StepLogLine<T>(cfg: Config, mode: LossMode<T>, n: nat, s: nat, x: StepInput<T>)
    requires Step(cfg, mode, n, s, x).Success?
    ensures var r := Step(cfg, mode, n, s, x).value;
            && cfg.printFreq != 0 && StepLoss(mode, s, x).Success?
            && (r.log.Some? <==> ShouldLog(s, cfg.printFreq))
            && (r.log.Some? ==>
                  var l := r.log.value;
                  && l.step == s && l.lr == x.lr && l.loss == r.loss
                  && l.lossRaw == StepLoss(mode, s, x).value.raw
                  && (l.kd.Some? <==> mode.Distillation?)
                  && (l.kd.Some? ==> l.lossRaw == l.kd.value.logit + l.kd.value.hidden + l.kd.value.attn))
  {
  }

  /** The first `k` steps of `xs` in order, stopping at the first one that
      fails. */
  function Run<T>(cfg: Config, mode: LossMode<T>, xs: seq<StepInput<T>>, k: nat): (r: Result<seq<StepRecord>, TrainError>)
    requires k <= |xs|
    ensures r.Success? ==> |r.value| == k
    ensures r.Success? ==> forall s :: 0 <= s < k ==> Step(cfg, mode, |xs|, s, xs[s]) == Success(r.value[s])
    ensures r.Failure? ==> exists s :: 0 <= s < k && Step(cfg, mode, |xs|, s, xs[s]) == Failure(r.error)
                                       && forall t :: 0 <= t < s ==> Step(cfg, mode, |xs|, t, xs[t]).Success?
  {
    if k == 0 then Success([])
    else
      match Run(cfg, mode, xs, k - 1)
      case Failure(e) => Failure(e)
      case Success(rs) =>
        match Step(cfg, mode, |xs|, k - 1, xs[k - 1])
        case Failure(e) => Failure(e)
        case Success(rec) => Success(rs + [rec])
  }

  /** `Trainer.train` over one epoch whose steps receive `xs`. */
  function TrainEpoch<T>(cfg: Config, mode: LossMode<T>, xs: seq<StepInput<T>>): Result<TrainResult, TrainError>
  {
    match Run(cfg, mode, xs, |xs|)
    case Failure(e) => Failure(e)
    case Success(rs) =>
      if |rs| == 0 then Failure(EmptyEpoch)
      else
        var steps := seq(|rs|, i requires 0 <= i < |rs| => rs[i].events);
        var batchLoss := seq(|rs|, i requires 0 <= i < |rs| => rs[i].loss);
        var stepLr := seq(|rs|, i requires 0 <= i < |rs| => rs[i].lr);
        var logs := seq(|rs|, i requires 0 <= i < |rs| => rs[i].log);
        Success(TrainResult(steps, [TrainMode] + Flatten(steps) + [Compute], batchLoss, stepLr, logs,
                            Sum(batchLoss) / (|rs| as real)))
  }

  // ---------------------------------------------------------------- validation

  /** The events of one validation step. */
  function ValEvents(logged: bool): seq<Event>
  {
    [Forward, RecordLoss] + MetricEvents + Optional(logged, LogStep)
  }

  /** One validation step: a no-grad forward, the task loss (reading a missing
      one fails), the gathered metric batch and, on the stride, a progress
      line. */
  function ValStep<T>(printFreq: int, s: nat, out: Distill.ModelOutput<T>): (r: Result<ValRecord, TrainError>)
    ensures r.Success? <==> out.loss.Some? && printFreq != 0
    ensures r.Failure? ==> r.error == if out.loss.None? then MissingLoss(s) else ZeroPrintFreq
    ensures r.Success? ==> r.value.loss == out.loss.value && (LogStep in r.value.events <==> ShouldLog(s, printFreq))
  {
    if out.loss.None? then Failure(MissingLoss(s))
    else if printFreq == 0 then Failure(ZeroPrintFreq)
    else Success(ValRecord(ValEvents(ShouldLog(s, printFreq)), out.loss.value))
  }

  /** The first `k` validation steps in order, stopping at the first one
      that fails. */
  function ValRun<T>(printFreq: int, outs: seq<Distill.ModelOutput<T>>, k: nat): (r: Result<seq<ValRecord>, TrainError>)
    requires k <= |outs|
    ensures r.Success? ==> |r.value| == k
    ensures r.Success? ==> forall s :: 0 <= s < k ==> ValStep(printFreq, s, outs[s]) == Success(r.value[s])
    ensures r.Failure? ==> exists s :: 0 <= s < k && ValStep(printFreq, s, outs[s]) == Failure(r.error)
                                       && forall t :: 0 <= t < s ==> ValStep(printFreq, t, outs[t]).Success?
  {
    if k == 0 then Success([])
    else
      match ValRun(printFreq, outs, k - 1)
      case Failure(e) => Failure(e)
      case Success(rs) =>
        match ValStep(printFreq, k - 1, outs[k - 1])
        case Failure(e) => Failure(e)
        case Success(rec) => Success(rs + [rec])
  }

  /** `Trainer.val` over one epoch whose forward passes yield `outs`. */
  function ValEpoch<T>(printFreq: int, outs: seq<Distill.ModelOutput<T>>): Result<ValResult, TrainError>
  {
    match ValRun(printFreq, outs, |outs|)
    case Failure(e) => Failure(e)
    case Success(rs) =>
      if |rs| == 0 then Failure(EmptyEpoch)
      else
        var steps := seq(|rs|, i requires 0 <= i < |rs| => rs[i].events);
        var batchLoss := seq(|rs|, i requires 0 <= i < |rs| => rs[i].loss);
        Success(ValResult(steps, [EvalMode] + Flatten(steps) + [Compute], batchLoss, Sum(batchLoss) / (|rs| as real)))
  }

  // ------------------------------------------------------------ properties

  /** Every step of `xs` has the loss its mode asks for. */
  ghost predicate LossAvailable<T>(mode: LossMode<T>, xs: seq<StepInput<T>>)
  {
    match mode
    case Plain => forall s :: 0 <= s < |xs| ==> xs[s].student.loss.Some?
    case Distillation(_, cls, reg) => cls.Some? && reg.Some?
  }

  /** Every step of `xs` carries labels, and under KD every step that writes
      a progress line can read its three sub-losses. */
  ghost predicate StepsReady<T>(cfg: Config, mode: LossMode<T>, xs: seq<StepInput<T>>)
    requires cfg.printFreq != 0
  {
    forall s :: 0 <= s < |xs| ==> xs[s].labels && (ShouldLog(s, cfg.printFreq) ==> KdReadable(mode, xs[s]))
  }

  /** The raw loss of every step of `xs`. */
  function RawLosses<T>(mode: LossMode<T>, xs: seq<StepInput<T>>): seq<real>
    requires LossAvailable(mode, xs)
  {
    seq(|xs|, s requires 0 <= s < |xs| => StepLoss(mode, s, xs[s]).value.raw)
  }

  /** The task loss of every validation step. */
  function TaskLosses<T>(outs: seq<Distill.ModelOutput<T>>): seq<real>
    requires forall s :: 0 <= s < |outs| ==> outs[s].loss.Some?
  {
    seq(|outs|, s requires 0 <= s < |outs| => outs[s].loss.value)
  }

  lemma ScaleAdd(x: real, y: real, w: int)
    requires w != 0
    ensures Scale(x, w) + Scale(y, w) == Scale(x + y, w)
  {
  }

  lemma {:induction false} SumScaled(a: seq<real>, b: seq<real>, w: int)
    requires w != 0 && |a| == |b|
    requires forall i :: 0 <= i < |a| ==> a[i] == Scale(b[i], w)
    ensures Sum(a) == Scale(Sum(b), w)
  {
    if |a| > 0 {
      var k := |a| - 1;
      SumScaled(a[..k], b[..k], w);
      ScaleAdd(Sum(b[..k]), b[k], w);
    } else {
      assert Scale(0.0, w) * (w as real) == 0.0;
    }
  }

  /** How often one training step makes each call, read off the branches of
      the loop: one forward, loss record, backward, norm measurement,
      learning-rate read and metric batch each; the teacher forward only
      under KD; the update group exactly on update steps; the pruner hooks
      only on update steps with a pruner, its sparsity line when `prune()`
      returned one and `sparsity()` when the mask condition held; a progress
      line only when asked; never a mode switch or `compute()`. */
  function StepCallCount<T>(cfg: Config, kd: bool, update: bool, logged: bool, x: StepInput<T>, e: Event): nat
  {
    match e
    case OptimizerStep | SchedulerStep | ZeroGrad | ProgressTick => if update then 1 else 0
    case Prune | MaskCheck => if update && cfg.hasPruner then 1 else 0
    case Forward | RecordLoss | Backward | RecordLr | GatherPredictions | GatherReferences | AddBatch => 1
    case TeacherForwardNoGrad => if kd then 1 else 0
    case ClipGrad => if cfg.clipGrad then 1 else 0
    case MeasureGradNorm => if cfg.clipGrad then 0 else 1
    case LogCurrentSparsity => if update && cfg.hasPruner && x.pruneReports then 1 else 0
    case SparsityReport => if update && cfg.hasPruner && x.maskDue then 1 else 0
    case LogStep => if logged then 1 else 0
    case TrainMode | EvalMode | Compute => 0
  }

  lemma CountSingle(x: Event, e: Event)
    ensures Count([x], e) == if x == e then 1 else 0
  {
    assert [x][..0] == [];
  }

  lemma CountOptional(b: bool, x: Event, e: Event)
    ensures Count(Optional(b, x), e) == if b && x == e then 1 else 0
  {
    CountSingle(x, e);
  }

  /** `Count` of a sequence of three and of four events. */
  lemma CountTriple(a: Event, b: Event, c: Event, e: Event)
    ensures Count([a, b, c], e) == (if a == e then 1 else 0) + (if b == e then 1 else 0) + (if c == e then 1 else 0)
  {
    assert [a, b, c][..2] == [a, b];
    assert [a, b][..1] == [a];
    CountSingle(a, e);
  }

  lemma CountLiteral(a: Event, b: Event, c: Event, d: Event, e: Event)
    ensures Count([a, b, c, d], e)
         == (if a == e then 1 else 0) + (if b == e then 1 else 0) + (if c == e then 1 else 0) + (if d == e then 1 else 0)
  {
    assert [a, b, c, d][..3] == [a, b, c];
    CountTriple(a, b, c, e);
  }

  lemma CountGrad(clip: bool, e: Event)
    ensures Count(GradEvents(clip), e)
         == if e == RecordLoss || e == Backward || e == RecordLr || e == (if clip then ClipGrad else MeasureGradNorm)
            then 1 else 0
  {
    CountLiteral(RecordLoss, Backward, if clip then ClipGrad else MeasureGradNorm, RecordLr, e);
  }

  lemma CountMetric(e: Event)
    ensures Count(MetricEvents, e) == if e == GatherPredictions || e == GatherReferences || e == AddBatch then 1 else 0
  {
    CountTriple(GatherPredictions, GatherReferences, AddBatch, e);
  }

  lemma CountPrunerHooks(hasPruner: bool, reports: bool, due: bool, e: Event)
    ensures Count(PrunerHooks(hasPruner, reports, due), e)
         == if !hasPruner then 0
            else if e == Prune || e == MaskCheck then 1
            else if e == LogCurrentSparsity then (if reports then 1 else 0)
            else if e == SparsityReport then (if due then 1 else 0)
            else 0
  {
    if hasPruner {
      var a, b, c, d := [Prune], Optional(reports, LogCurrentSparsity), [MaskCheck], Optional(due, SparsityReport);
      CountAppend(a, b, e);
      CountAppend(a + b, c, e);
      CountAppend(a + b + c, d, e);
      CountSingle(Prune, e);
      CountSingle(MaskCheck, e);
      CountOptional(reports, LogCurrentSparsity, e);
      CountOptional(due, SparsityReport, e);
    }
  }

  lemma CountUpdateGroup(update: bool, hasPruner: bool, reports: bool, due: bool, e: Event)
    ensures Count(UpdateGroup(update, hasPruner, reports, due), e)
         == if !update then 0
            else if e == OptimizerStep || e == SchedulerStep || e == ZeroGrad || e == ProgressTick then 1
            else Count(PrunerHooks(hasPruner, reports, due), e)
  {
    if update {
      CountAppend([OptimizerStep, SchedulerStep, ZeroGrad, ProgressTick], PrunerHooks(hasPruner, reports, due), e);
      CountLiteral(OptimizerStep, SchedulerStep, ZeroGrad, ProgressTick, e);
      CountPrunerHooks(hasPruner, reports, due, e);
    }
  }

  lemma CountStepParts<T>(cfg: Config, kd: bool, update: bool, logged: bool, x: StepInput<T>, e: Event)
    ensures Count(StepEvents(cfg, kd, update, logged, x), e)
         == Count([Forward], e) + Count(Optional(kd, TeacherForwardNoGrad), e) + Count(GradEvents(cfg.clipGrad), e)
            + Count(UpdateGroup(update, cfg.hasPruner, x.pruneReports, x.maskDue), e)
            + Count(MetricEvents, e) + Count(Optional(logged, LogStep), e)
  {
    var a, b, c := [Forward], Optional(kd, TeacherForwardNoGrad), GradEvents(cfg.clipGrad);
    var d, f, g := UpdateGroup(update, cfg.hasPruner, x.pruneReports, x.maskDue), MetricEvents, Optional(logged, LogStep);
    CountAppend(a + b + c, d + f + g, e);
    CountAppend(a, b, e);
    CountAppend(a + b, c, e);
    CountAppend(d, f, e);
    CountAppend(d + f, g, e);
  }

  /** The count of `e` in a step's events, piece by piece. */
  lemma CountStepClosed<T>(cfg: Config, kd: bool, update: bool, logged: bool, x: StepInput<T>, e: Event)
    ensures Count(StepEvents(cfg, kd, update, logged, x), e)
         == (if Forward == e then 1 else 0) + (if kd && TeacherForwardNoGrad == e then 1 else 0)
            + (if e == RecordLoss || e == Backward || e == RecordLr || e == (if cfg.clipGrad then ClipGrad else MeasureGradNorm) then 1 else 0)
            + (if !update then 0
               else if e == OptimizerStep || e == SchedulerStep || e == ZeroGrad || e == ProgressTick then 1
               else if !cfg.hasPruner then 0
               else if e == Prune || e == MaskCheck then 1
               else if e == LogCurrentSparsity then (if x.pruneReports then 1 else 0)
               else if e == SparsityReport then (if x.maskDue then 1 else 0)
               else 0)
            + (if e == GatherPredictions || e == GatherReferences || e == AddBatch then 1 else 0)
            + (if logged && LogStep == e then 1 else 0)
  {
    CountStepParts(cfg, kd, update, logged, x, e);
    CountSingle(Forward, e);
    CountOptional(kd, TeacherForwardNoGrad, e);
    CountGrad(cfg.clipGrad, e);
    CountUpdateGroup(update, cfg.hasPruner, x.pruneReports, x.maskDue, e);
    CountPrunerHooks(cfg.hasPruner, x.pruneReports, x.maskDue, e);
    CountMetric(e);
    CountOptional(logged, LogStep, e);
  }

  /** The piecewise count agrees with the reference table. */
  lemma ClosedCallCount<T>(cfg: Config, kd: bool, update: bool, logged: bool, x: StepInput<T>, e: Event)
    ensures (if Forward == e then 1 else 0) + (if kd && TeacherForwardNoGrad == e then 1 else 0)
            + (if e == RecordLoss || e == Backward || e == RecordLr || e == (if cfg.clipGrad then ClipGrad else MeasureGradNorm) then 1 else 0)
            + (if !update then 0
               else if e == OptimizerStep || e == SchedulerStep || e == ZeroGrad || e == ProgressTick then 1
               else if !cfg.hasPruner then 0
               else if e == Prune || e == MaskCheck then 1
               else if e == LogCurrentSparsity then (if x.pruneReports then 1 else 0)
               else if e == SparsityReport then (if x.maskDue then 1 else 0)
               else 0)
            + (if e == GatherPredictions || e == GatherReferences || e == AddBatch then 1 else 0)
            + (if logged && LogStep == e then 1 else 0)
         == StepCallCount(cfg, kd, update, logged, x, e)
  {
  }

  /** The events of a training step contain each call as often as the
      branches of the loop say. */
  lemma StepEventCounts<T>(cfg: Config, kd: bool, update: bool, logged: bool, x: StepInput<T>, e: Event)
    ensures Count(StepEvents(cfg, kd, update, logged, x), e) == StepCallCount(cfg, kd, update, logged, x, e)
  {
    CountStepClosed(cfg, kd, update, logged, x, e);
    ClosedCallCount(cfg, kd, update, logged, x, e);
  }

  /** A successful epoch recorded, for every step, exactly what that step
      returned. */
  lemma TrainRecords<T>(cfg: Config, mode: LossMode<T>, xs: seq<StepInput<T>>)
    requires TrainEpoch(cfg, mode, xs).Success?
    ensures var r := TrainEpoch(cfg, mode, xs).value;
      && |r.steps| == |r.batchLoss| == |r.stepLr| == |r.logs| == |xs|
      && forall s :: 0 <= s < |xs| ==>
           Step(cfg, mode, |xs|, s, xs[s]) == Success(StepRecord(r.steps[s], r.batchLoss[s], r.stepLr[s], r.logs[s]))
  {
    var rs := Run(cfg, mode, xs, |xs|).value;
    var r := TrainEpoch(cfg, mode, xs).value;
    forall s | 0 <= s < |xs|
      ensures Step(cfg, mode, |xs|, s, xs[s]) == Success(StepRecord(r.steps[s], r.batchLoss[s], r.stepLr[s], r.logs[s]))
    {
      assert Step(cfg, mode, |xs|, s, xs[s]) == Success(rs[s]);
    }
  }

  /** A successful epoch ran every step and recorded what each returned. */
  lemma TrainSteps<T>(cfg: Config, mode: LossMode<T>, xs: seq<StepInput<T>>)
    requires TrainEpoch(cfg, mode, xs).Success?
    ensures cfg.window != 0 && cfg.printFreq != 0 && |xs| >= 1
    ensures LossAvailable(mode, xs) && StepsReady(cfg, mode, xs)
    ensures var r := TrainEpoch(cfg, mode, xs).value;
      && |r.steps| == |r.batchLoss| == |r.stepLr| == |r.logs| == |xs|
      && r.trace == [TrainMode] + Flatten(r.steps) + [Compute]
      && r.trainLoss == Sum(r.batchLoss) / (|xs| as real)
      && forall s :: 0 <= s < |xs| ==>
           Step(cfg, mode, |xs|, s, xs[s]) == Success(StepRecord(r.steps[s], r.batchLoss[s], r.stepLr[s], r.logs[s]))
  {
    TrainRecords(cfg, mode, xs);
    assert Step(cfg, mode, |xs|, 0, xs[0]).Success?;
    forall s | 0 <= s < |xs|
      ensures xs[s].labels && (ShouldLog(s, cfg.printFreq) ==> KdReadable(mode, xs[s]))
      ensures mode.Plain? ==> xs[s].student.loss.Some?
    {
      assert Step(cfg, mode, |xs|, s, xs[s]).Success?;
    }
  }

  /** The trace of a successful epoch is its steps between the mode switch
      and `compute()`. */
  lemma TrainTrace<T>(cfg: Config, mode: LossMode<T>, xs: seq<StepInput<T>>)
    requires TrainEpoch(cfg, mode, xs).Success?
    ensures var r := TrainEpoch(cfg, mode, xs).value;
      |xs| >= 1 && |r.steps| == |xs| && r.trace == [TrainMode] + Flatten(r.steps) + [Compute]
  {
    TrainSteps(cfg, mode, xs);
  }

  /** Every step of a successful epoch made the calls of `StepEvents` for its
      update and logging decisions. */
  lemma TrainStepShapes<T>(cfg: Config, mode: LossMode<T>, xs: seq<StepInput<T>>)
    requires TrainEpoch(cfg, mode, xs).Success?
    ensures cfg.window != 0 && cfg.printFreq != 0
    ensures var r := TrainEpoch(cfg, mode, xs).value;
      && |r.steps| == |xs| && r.trace == [TrainMode] + Flatten(r.steps) + [Compute]
      && forall s :: 0 <= s < |xs| ==>
           r.steps[s] == StepEvents(cfg, mode.Distillation?, ShouldUpdate(s, |xs|, cfg.window),
                                    ShouldLog(s, cfg.printFreq), xs[s])
  {
    TrainSteps(cfg, mode, xs);
  }

  /** A training epoch completes exactly when it has at least one step, a
      non-zero window and print stride, every step has its loss (a task loss
      in plain mode, both sub-loss functions under KD) and its labels, and
      under KD every logged step can read its sub-losses. */
  lemma TrainEpochSucceeds<T>(cfg: Config, mode: LossMode<T>, xs: seq<StepInput<T>>)
    ensures TrainEpoch(cfg, mode, xs).Success?
        <==> && |xs| >= 1 && cfg.window != 0 && cfg.printFreq != 0
             && LossAvailable(mode, xs) && StepsReady(cfg, mode, xs)
  {
    if && |xs| >= 1 && cfg.window != 0 && cfg.printFreq != 0
       && LossAvailable(mode, xs) && StepsReady(cfg, mode, xs) {
      assert forall s :: 0 <= s < |xs| ==> Step(cfg, mode, |xs|, s, xs[s]).Success?;
    }
    if TrainEpoch(cfg, mode, xs).Success? {
      TrainSteps(cfg, mode, xs);
    }
  }

  /** Every step records its raw loss divided by the window and the
      optimizer's learning rate, so `batch_loss` and `step_lr` have one entry
      per step. */
  lemma TrainStepRecords<T>(cfg: Config, mode: LossMode<T>, xs: seq<StepInput<T>>)
    requires TrainEpoch(cfg, mode, xs).Success?
    ensures LossAvailable(mode, xs) && cfg.window != 0
    ensures var r := TrainEpoch(cfg, mode, xs).value;
      && |r.batchLoss| == |xs| && |r.stepLr| == |xs|
      && (forall s :: 0 <= s < |xs| ==> r.batchLoss[s] == Scale(RawLosses(mode, xs)[s], cfg.window))
      && (forall s :: 0 <= s < |xs| ==> r.stepLr[s] == xs[s].lr)
      && r.trainLoss == Sum(r.batchLoss) / (|xs| as real)
  {
    TrainSteps(cfg, mode, xs);
  }

  /** The epoch loss is the mean over its steps of the raw losses, divided by
      the window. */
  lemma TrainLossMean<T>(cfg: Config, mode: LossMode<T>, xs: seq<StepInput<T>>)
    requires TrainEpoch(cfg, mode, xs).Success?
    ensures LossAvailable(mode, xs)
    ensures var r := TrainEpoch(cfg, mode, xs).value;
      cfg.window != 0 && r.trainLoss == Scale(Sum(RawLosses(mode, xs)), cfg.window) / (|xs| as real)
  {
    TrainStepRecords(cfg, mode, xs);
    var r := TrainEpoch(cfg, mode, xs).value;
    SumScaled(r.batchLoss, RawLosses(mode, xs), cfg.window);
  }

  /** The trace of a training epoch over `xs` is `steps` between the mode
      switch and `compute()`, and step `s` makes `e` as often as
      `StepCallCount` says for the update and logging decisions at `s`. */
  ghost predicate TrainCadence<T>(cfg: Config, kd: bool, xs: seq<StepInput<T>>, steps: seq<seq<Event>>, trace: seq<Event>, e: Event)
  {
    && cfg.window != 0 && cfg.printFreq != 0 && |xs| >= 1 && |steps| == |xs|
    && trace == [TrainMode] + Flatten(steps) + [Compute]
    && forall s :: 0 <= s < |xs| ==>
         Count(steps[s], e)
           == StepCallCount(cfg, kd, ShouldUpdate(s, |xs|, cfg.window), ShouldLog(s, cfg.printFreq), xs[s], e)
  }

  /** Per step: every call happens as often as `StepCallCount` says for the
      update decision of the accumulation rule and the logging decision of
      the print stride at that step. */
  lemma TrainStepCadence<T>(cfg: Config, mode: LossMode<T>, xs: seq<StepInput<T>>, e: Event)
    requires TrainEpoch(cfg, mode, xs).Success?
    ensures var r := TrainEpoch(cfg, mode, xs).value;
      TrainCadence(cfg, mode.Distillation?, xs, r.steps, r.trace, e)
  {
    TrainStepShapes(cfg, mode, xs);
    TrainTrace(cfg, mode, xs);
    forall s | 0 <= s < |xs| {
      StepEventCounts(cfg, mode.Distillation?, ShouldUpdate(s, |xs|, cfg.window), ShouldLog(s, cfg.printFreq), xs[s], e);
    }
  }

  lemma {:induction false} UpdateTotal(steps: seq<seq<Event>>, e: Event, n: nat, w: int)
    requires w != 0
    requires forall s :: 0 <= s < |steps| ==> Count(steps[s], e) == (if ShouldUpdate(s, n, w) then 1 else 0)
    ensures Count(Flatten(steps), e) == UpdateCount(|steps|, n, w)
  {
    if |steps| > 0 {
      UpdateTotal(steps[..|steps| - 1], e, n, w);
      CountAppend(Flatten(steps[..|steps| - 1]), steps[|steps| - 1], e);
    }
  }

  lemma {:induction false} LogTotal(steps: seq<seq<Event>>, e: Event, pf: int)
    requires pf != 0
    requires forall s :: 0 <= s < |steps| ==> Count(steps[s], e) == (if ShouldLog(s, pf) then 1 else 0)
    ensures Count(Flatten(steps), e) == LogCount(|steps|, pf)
  {
    if |steps| > 0 {
      LogTotal(steps[..|steps| - 1], e, pf);
      CountAppend(Flatten(steps[..|steps| - 1]), steps[|steps| - 1], e);
    }
  }

  lemma {:induction false} OncePerStepTotal(steps: seq<seq<Event>>, e: Event)
    requires forall s :: 0 <= s < |steps| ==> Count(steps[s], e) == 1
    ensures Count(Flatten(steps), e) == |steps|
  {
    if |steps| > 0 {
      OncePerStepTotal(steps[..|steps| - 1], e);
      CountAppend(Flatten(steps[..|steps| - 1]), steps[|steps| - 1], e);
    }
  }

  lemma {:induction false} NeverTotal(steps: seq<seq<Event>>, e: Event)
    requires forall s :: 0 <= s < |steps| ==> Count(steps[s], e) == 0
    ensures Count(Flatten(steps), e) == 0
  {
    if |steps| > 0 {
      NeverTotal(steps[..|steps| - 1], e);
      CountAppend(Flatten(steps[..|steps| - 1]), steps[|steps| - 1], e);
    }
  }

  /** The trace of an epoch is its steps between the mode switch and
      `compute()`. */
  lemma TraceTotals(steps: seq<seq<Event>>, e: Event)
    ensures Count([TrainMode] + Flatten(steps) + [Compute], e)
         == Count(Flatten(steps), e) + (if e == TrainMode then 1 else 0) + (if e == Compute then 1 else 0)
    ensures Count([EvalMode] + Flatten(steps) + [Compute], e)
         == Count(Flatten(steps), e) + (if e == EvalMode then 1 else 0) + (if e == Compute then 1 else 0)
  {
    CountAppend([TrainMode], Flatten(steps), e);
    CountAppend([TrainMode] + Flatten(steps), [Compute], e);
    CountAppend([EvalMode], Flatten(steps), e);
    CountAppend([EvalMode] + Flatten(steps), [Compute], e);
    CountSingle(TrainMode, e);
    CountSingle(EvalMode, e);
    CountSingle(Compute, e);
  }

  /** An event a step makes exactly when it updates occurs once per update
      step over the epoch. */
  lemma UpdateDrivenTotal<T>(cfg: Config, kd: bool, xs: seq<StepInput<T>>, steps: seq<seq<Event>>, trace: seq<Event>, e: Event)
    requires TrainCadence(cfg, kd, xs, steps, trace, e)
    requires e == OptimizerStep || e == SchedulerStep || e == ZeroGrad || e == ProgressTick || (cfg.hasPruner && (e == Prune || e == MaskCheck))
    ensures Count(trace, e) == UpdateCount(|xs|, |xs|, cfg.window)
  {
    assert StepCallCount(cfg, kd, true, true, xs[0], e) == 1;
    forall s | 0 <= s < |xs|
      ensures Count(steps[s], e) == if ShouldUpdate(s, |xs|, cfg.window) then 1 else 0
    {
    }
    UpdateTotal(steps, e, |xs|, cfg.window);
    TraceTotals(steps, e);
  }

  /** An event a step makes exactly when it logs occurs once per progress
      line over the epoch. */
  lemma LogDrivenTotal<T>(cfg: Config, kd: bool, xs: seq<StepInput<T>>, steps: seq<seq<Event>>, trace: seq<Event>, e: Event)
    requires TrainCadence(cfg, kd, xs, steps, trace, e)
    requires e == LogStep
    ensures Count(trace, e) == LogCount(|xs|, cfg.printFreq)
  {
    assert StepCallCount(cfg, kd, true, true, xs[0], e) == 1;
    forall s | 0 <= s < |xs|
      ensures Count(steps[s], e) == if ShouldLog(s, cfg.printFreq) then 1 else 0
    {
    }
    LogTotal(steps, e, cfg.printFreq);
    TraceTotals(steps, e);
  }

  /** An event every step makes once occurs once per step over the epoch. */
  lemma OnceTotal<T>(cfg: Config, kd: bool, xs: seq<StepInput<T>>, steps: seq<seq<Event>>, trace: seq<Event>, e: Event)
    requires TrainCadence(cfg, kd, xs, steps, trace, e)
    requires e == Forward || e == Backward || e == AddBatch
    ensures Count(trace, e) == |xs|
  {
    assert StepCallCount(cfg, kd, true, true, xs[0], e) == 1;
    forall s | 0 <= s < |xs|
      ensures Count(steps[s], e) == 1
    {
    }
    OncePerStepTotal(steps, e);
    TraceTotals(steps, e);
  }

  /** An event no step makes occurs only as the epoch's own mode switch or
      `compute()`. */
  lemma AbsentTotal<T>(cfg: Config, kd: bool, xs: seq<StepInput<T>>, steps: seq<seq<Event>>, trace: seq<Event>, e: Event)
    requires TrainCadence(cfg, kd, xs, steps, trace, e)
    requires e == TrainMode || e == EvalMode || e == Compute || (!cfg.hasPruner && (e == Prune || e == MaskCheck))
    ensures Count(trace, e) == if e == TrainMode || e == Compute then 1 else 0
  {
    forall s | 0 <= s < |xs|
      ensures Count(steps[s], e) == 0
    {
    }
    NeverTotal(steps, e);
    TraceTotals(steps, e);
  }

  lemma EpochUpdateTotal<T>(cfg: Config, mode: LossMode<T>, xs: seq<StepInput<T>>, e: Event)
    requires TrainEpoch(cfg, mode, xs).Success?
    requires e == OptimizerStep || e == SchedulerStep || e == ZeroGrad || e == ProgressTick || (cfg.hasPruner && (e == Prune || e == MaskCheck))
    ensures cfg.window != 0
    ensures Count(TrainEpoch(cfg, mode, xs).value.trace, e) == UpdateCount(|xs|, |xs|, cfg.window)
  {
    var r := TrainEpoch(cfg, mode, xs).value;
    TrainStepCadence(cfg, mode, xs, e);
    UpdateDrivenTotal(cfg, mode.Distillation?, xs, r.steps, r.trace, e);
  }

  lemma EpochLogTotal<T>(cfg: Config, mode: LossMode<T>, xs: seq<StepInput<T>>, e: Event)
    requires TrainEpoch(cfg, mode, xs).Success?
    requires e == LogStep
    ensures cfg.printFreq != 0
    ensures Count(TrainEpoch(cfg, mode, xs).value.trace, e) == LogCount(|xs|, cfg.printFreq)
  {
    var r := TrainEpoch(cfg, mode, xs).value;
    TrainStepCadence(cfg, mode, xs, e);
    LogDrivenTotal(cfg, mode.Distillation?, xs, r.steps, r.trace, e);
  }

  lemma EpochOnceTotal<T>(cfg: Config, mode: LossMode<T>, xs: seq<StepInput<T>>, e: Event)
    requires TrainEpoch(cfg, mode, xs).Success?
    requires e == Forward || e == Backward || e == AddBatch
    ensures Count(TrainEpoch(cfg, mode, xs).value.trace, e) == |xs|
  {
    var r := TrainEpoch(cfg, mode, xs).value;
    TrainStepCadence(cfg, mode, xs, e);
    OnceTotal(cfg, mode.Distillation?, xs, r.steps, r.trace, e);
  }

  lemma EpochAbsentTotal<T>(cfg: Config, mode: LossMode<T>, xs: seq<StepInput<T>>, e: Event)
    requires TrainEpoch(cfg, mode, xs).Success?
    requires e == TrainMode || e == EvalMode || e == Compute || (!cfg.hasPruner && (e == Prune || e == MaskCheck))
    ensures Count(TrainEpoch(cfg, mode, xs).value.trace, e) == if e == TrainMode || e == Compute then 1 else 0
  {
    var r := TrainEpoch(cfg, mode, xs).value;
    TrainStepCadence(cfg, mode, xs, e);
    AbsentTotal(cfg, mode.Distillation?, xs, r.steps, r.trace, e);
  }

  /** Over a whole epoch the optimizer, scheduler, zero-grad and progress-bar
      calls each happen once per step at which the accumulation gate opens:
      ceil(n / w) times for n steps and a window w >= 1, by
      `Accumulation.UpdateCountIsCeiling`. */
  lemma TrainUpdateCounts<T>(cfg: Config, mode: LossMode<T>, xs: seq<StepInput<T>>)
    requires TrainEpoch(cfg, mode, xs).Success?
    ensures cfg.window != 0
    ensures var t, updates := TrainEpoch(cfg, mode, xs).value.trace, UpdateCount(|xs|, |xs|, cfg.window);
      && Count(t, OptimizerStep) == updates
      && Count(t, SchedulerStep) == updates
      && Count(t, ZeroGrad) == updates
      && Count(t, ProgressTick) == updates
  {
    EpochUpdateTotal(cfg, mode, xs, OptimizerStep);
    EpochUpdateTotal(cfg, mode, xs, SchedulerStep);
    EpochUpdateTotal(cfg, mode, xs, ZeroGrad);
    EpochUpdateTotal(cfg, mode, xs, ProgressTick);
  }

  /** With a pruner attached, `prune()` and `_update_mask_conditions()` run
      once per update step; without one, never. */
  lemma TrainPrunerCounts<T>(cfg: Config, mode: LossMode<T>, xs: seq<StepInput<T>>)
    requires TrainEpoch(cfg, mode, xs).Success?
    ensures cfg.window != 0
    ensures var t, updates := TrainEpoch(cfg, mode, xs).value.trace, UpdateCount(|xs|, |xs|, cfg.window);
      && Count(t, Prune) == (if cfg.hasPruner then updates else 0)
      && Count(t, MaskCheck) == (if cfg.hasPruner then updates else 0)
  {
    TrainSteps(cfg, mode, xs);
    if cfg.hasPruner {
      EpochUpdateTotal(cfg, mode, xs, Prune);
      EpochUpdateTotal(cfg, mode, xs, MaskCheck);
    } else {
      EpochAbsentTotal(cfg, mode, xs, Prune);
      EpochAbsentTotal(cfg, mode, xs, MaskCheck);
    }
  }

  /** Over a whole epoch of n steps, every step runs one forward and one
      backward pass and feeds the metric once. */
  lemma TrainPassCounts<T>(cfg: Config, mode: LossMode<T>, xs: seq<StepInput<T>>)
    requires TrainEpoch(cfg, mode, xs).Success?
    ensures var t := TrainEpoch(cfg, mode, xs).value.trace;
      Count(t, Forward) == |xs| && Count(t, Backward) == |xs| && Count(t, AddBatch) == |xs|
  {
    EpochOnceTotal(cfg, mode, xs, Forward);
    EpochOnceTotal(cfg, mode, xs, Backward);
    EpochOnceTotal(cfg, mode, xs, AddBatch);
  }

  /** Over a whole epoch, training mode is set once and never evaluation
      mode, the metric is computed once, and one progress line is written per
      multiple of the print stride: ceil(n / p) lines for n steps and a stride
      p >= 1, by `Accumulation.LogCountIsCeiling`. */
  lemma TrainEpochCounts<T>(cfg: Config, mode: LossMode<T>, xs: seq<StepInput<T>>)
    requires TrainEpoch(cfg, mode, xs).Success?
    ensures cfg.printFreq != 0
    ensures var t := TrainEpoch(cfg, mode, xs).value.trace;
      && Count(t, TrainMode) == 1 && Count(t, Compute) == 1 && Count(t, EvalMode) == 0
      && Count(t, LogStep) == LogCount(|xs|, cfg.printFreq)
  {
    EpochAbsentTotal(cfg, mode, xs, TrainMode);
    EpochAbsentTotal(cfg, mode, xs, Compute);
    EpochAbsentTotal(cfg, mode, xs, EvalMode);
    EpochLogTotal(cfg, mode, xs, LogStep);
  }

  /** As written, a KD epoch whose first step has an empty hidden-state or
      attention zip aborts at step 0, the first logged step, when its
      progress line calls `.item()` on the float `0.` — once the checks
      before that line pass. */
  lemma AsWrittenKdEpochFails<T>(cfg: Config, mode: LossMode<T>, xs: seq<StepInput<T>>)
    requires mode.Distillation? && mode.clsLoss.Some? && mode.regLoss.Some?
    requires cfg.window != 0 && cfg.printFreq != 0 && |xs| >= 1 && xs[0].labels
    requires || |Distill.LayerPairs(xs[0].student.hidden, xs[0].teacher.hidden, mode.beginLayer)| == 0
             || |Distill.LayerPairs(xs[0].student.attentions, xs[0].teacher.attentions, mode.beginLayer)| == 0
    ensures TrainEpoch(cfg, mode, xs) == Failure(KdItemOnFloat(0))
  {
    assert Step(cfg, mode, |xs|, 0, xs[0]) == Failure(KdItemOnFloat(0));
    assert Run(cfg, mode, xs, |xs|) == Failure(KdItemOnFloat(0));
  }

  /** One KD step of a twelve-layer model (thirteen hidden states, twelve
      attention maps) with `BEGIN_LAYER = 12`: the attention sum stays the
      float `0.` and the epoch aborts at its first progress line. */
  lemma AsWrittenKdEpochExample()
    ensures var m := Distill.ModelOutput(None, 0, seq(13, i => i), seq(12, i => i));
            var mode := Distillation(12, Some((a: int, b: int) => 0.0), Some((a: int, b: int) => 1.0));
            TrainEpoch(Config(1, 1, false, false), mode, [StepInput(m, m, true, 0.1, false, false)])
              == Failure(KdItemOnFloat(0))
  {
    var m := Distill.ModelOutput(None, 0, seq(13, i => i), seq(12, i => i));
    var mode := Distillation(12, Some((a: int, b: int) => 0.0), Some((a: int, b: int) => 1.0));
    AsWrittenKdEpochFails(Config(1, 1, false, false), mode, [StepInput(m, m, true, 0.1, false, false)]);
  }

  /** Every progress line is written on a multiple of the print stride, step 0
      included, and reports that step's learning rate, its raw loss, the loss
      divided by the window and, under KD, the three sub-losses whose sum is
      the raw loss (not the unused task loss). */
  lemma TrainTelemetry<T>(cfg: Config, mode: LossMode<T>, xs: seq<StepInput<T>>)
    requires TrainEpoch(cfg, mode, xs).Success?
    ensures cfg.printFreq != 0 && LossAvailable(mode, xs)
    ensures var r := TrainEpoch(cfg, mode, xs).value;
      && |r.logs| == |xs| && |r.batchLoss| == |xs|
      && r.logs[0].Some?
      && forall s :: 0 <= s < |xs| ==>
           && (r.logs[s].Some? <==> ShouldLog(s, cfg.printFreq))
           && (r.logs[s].Some? ==>
                 var l := r.logs[s].value;
                 && l.step == s && l.lr == xs[s].lr && l.loss == r.batchLoss[s]
                 && l.lossRaw == RawLosses(mode, xs)[s]
                 && (l.kd.Some? <==> mode.Distillation?)
                 && (l.kd.Some? ==> l.lossRaw == l.kd.value.logit + l.kd.value.hidden + l.kd.value.attn))
  {
    TrainSteps(cfg, mode, xs);
    forall s | 0 <= s < |xs| {
      StepLogLine(cfg, mode, |xs|, s, xs[s]);
    }
  }

  // ------------------------------------------------------------ validation

  /** How often one validation step makes each call: a forward pass, the
      loss record and the metric batch once each, a progress line when asked,
      and nothing that touches gradients, the optimizer, the scheduler, the
      progress bar or the pruner. */
  function ValCallCount(logged: bool, e: Event): nat
  {
    if e == Forward || e == RecordLoss || e == GatherPredictions || e == GatherReferences || e == AddBatch then 1
    else if e == LogStep then (if logged then 1 else 0)
    else 0
  }

  lemma ValEventsClosed(logged: bool, e: Event)
    ensures Count(ValEvents(logged), e)
         == (if e == Forward || e == RecordLoss then 1 else 0)
            + (if e == GatherPredictions || e == GatherReferences || e == AddBatch then 1 else 0)
            + (if logged && LogStep == e then 1 else 0)
  {
    CountAppend([Forward, RecordLoss], MetricEvents, e);
    CountAppend([Forward, RecordLoss] + MetricEvents, Optional(logged, LogStep), e);
    CountAppend([Forward], [RecordLoss], e);
    assert [Forward] + [RecordLoss] == [Forward, RecordLoss];
    CountSingle(Forward, e);
    CountSingle(RecordLoss, e);
    CountMetric(e);
    CountOptional(logged, LogStep, e);
  }

  /** The events of a validation step contain each call as often as
      `ValCallCount` says. */
  lemma ValEventCounts(logged: bool, e: Event)
    ensures Count(ValEvents(logged), e) == ValCallCount(logged, e)
  {
    ValEventsClosed(logged, e);
  }

  /** A successful validation epoch ran every step and recorded its loss. */
  lemma ValSteps<T>(printFreq: int, outs: seq<Distill.ModelOutput<T>>)
    requires ValEpoch(printFreq, outs).Success?
    ensures printFreq != 0 && |outs| >= 1
    ensures forall s :: 0 <= s < |outs| ==> outs[s].loss.Some?
    ensures var r := ValEpoch(printFreq, outs).value;
      && |r.steps| == |r.batchLoss| == |outs|
      && r.trace == [EvalMode] + Flatten(r.steps) + [Compute]
      && r.valLoss == Sum(r.batchLoss) / (|outs| as real)
      && forall s :: 0 <= s < |outs| ==>
           && ValStep(printFreq, s, outs[s]).Success?
           && ValStep(printFreq, s, outs[s]).value.events == r.steps[s]
           && ValStep(printFreq, s, outs[s]).value.loss == r.batchLoss[s]
  {
    var rs := ValRun(printFreq, outs, |outs|).value;
    var r := ValEpoch(printFreq, outs).value;
    forall s | 0 <= s < |outs|
      ensures ValStep(printFreq, s, outs[s]) == Success(ValRecord(r.steps[s], r.batchLoss[s]))
    {
      assert ValStep(printFreq, s, outs[s]) == Success(rs[s]);
    }
    assert ValStep(printFreq, 0, outs[0]).Success?;
  }

  /** A validation epoch completes exactly when it has at least one batch, a
      non-zero print stride and a task loss for every batch. */
  lemma ValEpochSucceeds<T>(printFreq: int, outs: seq<Distill.ModelOutput<T>>)
    ensures ValEpoch(printFreq, outs).Success?
        <==> |outs| >= 1 && printFreq != 0 && forall s :: 0 <= s < |outs| ==> outs[s].loss.Some?
  {
    if |outs| >= 1 && printFreq != 0 && forall s :: 0 <= s < |outs| ==> outs[s].loss.Some? {
      assert forall s :: 0 <= s < |outs| ==> ValStep(printFreq, s, outs[s]).Success?;
    }
    if ValEpoch(printFreq, outs).Success? {
      ValSteps(printFreq, outs);
    }
  }

  /** `val_loss` is the mean of the task losses the model reported, one per
      batch, in order. */
  lemma ValLossMean<T>(printFreq: int, outs: seq<Distill.ModelOutput<T>>)
    requires ValEpoch(printFreq, outs).Success?
    ensures forall s :: 0 <= s < |outs| ==> outs[s].loss.Some?
    ensures var r := ValEpoch(printFreq, outs).value;
      && r.batchLoss == TaskLosses(outs)
      && r.valLoss == Sum(TaskLosses(outs)) / (|outs| as real)
  {
    ValSteps(printFreq, outs);
  }

  /** The trace of a validation epoch over `n` batches is `steps` between
      the mode switch and `compute()`, and step `s` makes `e` as often as
      `ValCallCount` says for the logging decision at `s`. */
  ghost predicate ValCadence(printFreq: int, n: nat, steps: seq<seq<Event>>, trace: seq<Event>, e: Event)
  {
    && printFreq != 0 && n >= 1 && |steps| == n
    && trace == [EvalMode] + Flatten(steps) + [Compute]
    && forall s :: 0 <= s < n ==> Count(steps[s], e) == ValCallCount(ShouldLog(s, printFreq), e)
  }

  /** Per step: every call happens as often as `ValCallCount` says for the
      logging decision at that step. */
  lemma ValStepCadence<T>(printFreq: int, outs: seq<Distill.ModelOutput<T>>, e: Event)
    requires ValEpoch(printFreq, outs).Success?
    ensures var r := ValEpoch(printFreq, outs).value;
      ValCadence(printFreq, |outs|, r.steps, r.trace, e)
  {
    ValSteps(printFreq, outs);
    forall s | 0 <= s < |outs| {
      ValEventCounts(ShouldLog(s, printFreq), e);
    }
  }

  lemma ValShapeLog(printFreq: int, n: nat, steps: seq<seq<Event>>, trace: seq<Event>, e: Event)
    requires ValCadence(printFreq, n, steps, trace, e) && e == LogStep
    ensures Count(trace, e) == LogCount(n, printFreq)
  {
    forall s | 0 <= s < n
      ensures Count(steps[s], e) == if ShouldLog(s, printFreq) then 1 else 0
    {
    }
    TraceTotals(steps, e);
    LogTotal(steps, e, printFreq);
  }

  lemma ValShapeOnce(printFreq: int, n: nat, steps: seq<seq<Event>>, trace: seq<Event>, e: Event)
    requires ValCadence(printFreq, n, steps, trace, e)
    requires e == Forward || e == RecordLoss || e == GatherPredictions || e == GatherReferences || e == AddBatch
    ensures Count(trace, e) == n
  {
    forall s | 0 <= s < n
      ensures Count(steps[s], e) == 1
    {
    }
    TraceTotals(steps, e);
    OncePerStepTotal(steps, e);
  }

  lemma ValShapeNever(printFreq: int, n: nat, steps: seq<seq<Event>>, trace: seq<Event>, e: Event)
    requires ValCadence(printFreq, n, steps, trace, e)
    requires !(e == LogStep || e == Forward || e == RecordLoss || e == GatherPredictions || e == GatherReferences || e == AddBatch)
    ensures Count(trace, e) == if e == EvalMode || e == Compute then 1 else 0
  {
    forall s | 0 <= s < n
      ensures Count(steps[s], e) == 0
    {
    }
    TraceTotals(steps, e);
    NeverTotal(steps, e);
  }

  lemma ValShapeTotal(printFreq: int, n: nat, steps: seq<seq<Event>>, trace: seq<Event>, e: Event)
    requires ValCadence(printFreq, n, steps, trace, e)
    ensures Count(trace, e)
         == if e == LogStep then LogCount(n, printFreq)
            else if e == Forward || e == RecordLoss || e == GatherPredictions || e == GatherReferences || e == AddBatch then n
            else if e == EvalMode || e == Compute then 1
            else 0
  {
    if e == LogStep {
      ValShapeLog(printFreq, n, steps, trace, e);
    } else if e == Forward || e == RecordLoss || e == GatherPredictions || e == GatherReferences || e == AddBatch {
      ValShapeOnce(printFreq, n, steps, trace, e);
    } else {
      ValShapeNever(printFreq, n, steps, trace, e);
    }
  }

  lemma ValTotal<T>(printFreq: int, outs: seq<Distill.ModelOutput<T>>, e: Event)
    requires ValEpoch(printFreq, outs).Success?
    ensures printFreq != 0
    ensures Count(ValEpoch(printFreq, outs).value.trace, e)
         == if e == LogStep then LogCount(|outs|, printFreq)
            else if e == Forward || e == RecordLoss || e == GatherPredictions || e == GatherReferences || e == AddBatch then |outs|
            else if e == EvalMode || e == Compute then 1
            else 0
  {
    var r := ValEpoch(printFreq, outs).value;
    ValStepCadence(printFreq, outs, e);
    ValShapeTotal(printFreq, |outs|, r.steps, r.trace, e);
  }

  /** Over a validation epoch of n batches: one forward pass, loss record and
      metric batch per batch, evaluation mode set once, the metric computed
      once and one progress line per multiple of the print stride, ceil(n / p)
      for a stride p >= 1 by `Accumulation.LogCountIsCeiling`. */
  lemma ValEpochCounts<T>(printFreq: int, outs: seq<Distill.ModelOutput<T>>)
    requires ValEpoch(printFreq, outs).Success?
    ensures printFreq != 0
    ensures var t, n := ValEpoch(printFreq, outs).value.trace, |outs|;
      && Count(t, Forward) == n && Count(t, RecordLoss) == n && Count(t, AddBatch) == n
      && Count(t, EvalMode) == 1 && Count(t, Compute) == 1
      && Count(t, LogStep) == LogCount(n, printFreq)
  {
    ValTotal(printFreq, outs, Forward);
    ValTotal(printFreq, outs, RecordLoss);
    ValTotal(printFreq, outs, AddBatch);
    ValTotal(printFreq, outs, EvalMode);
    ValTotal(printFreq, outs, Compute);
    ValTotal(printFreq, outs, LogStep);
  }

  /** Validation never trains: no training-mode switch, backward pass,
      optimizer, scheduler, zero-grad, progress-bar, teacher or pruner call. */
  lemma ValNeverUpdates<T>(printFreq: int, outs: seq<Distill.ModelOutput<T>>)
    requires ValEpoch(printFreq, outs).Success?
    ensures var t := ValEpoch(printFreq, outs).value.trace;
      && Count(t, TrainMode) == 0 && Count(t, Backward) == 0
      && Count(t, OptimizerStep) == 0 && Count(t, SchedulerStep) == 0
      && Count(t, ZeroGrad) == 0 && Count(t, ProgressTick) == 0
      && Count(t, TeacherForwardNoGrad) == 0 && Count(t, Prune) == 0 && Count(t, MaskCheck) == 0
  {
    ValTotal(printFreq, outs, TrainMode);
    ValTotal(printFreq, outs, Backward);
    ValTotal(printFreq, outs, OptimizerStep);
    ValTotal(printFreq, outs, SchedulerStep);
    ValTotal(printFreq, outs, ZeroGrad);
    ValTotal(printFreq, outs, ProgressTick);
    ValTotal(printFreq, outs, TeacherForwardNoGrad);
    ValTotal(printFreq, outs, Prune);
    ValTotal(printFreq, outs, MaskCheck);
  }

  // ---------------------------------------------------------------- ordering

  /** The moves the training loop can make from one event to the next. */
  predicate TrainMove(a: Event, b: Event)
  {
    match a
    case TrainMode => b == Forward
    case Forward => b == TeacherForwardNoGrad || b == RecordLoss
    case TeacherForwardNoGrad => b == RecordLoss
    case RecordLoss => b == Backward
    case Backward => b == ClipGrad || b == MeasureGradNorm
    case ClipGrad => b == RecordLr
    case MeasureGradNorm => b == RecordLr
    case RecordLr => b == OptimizerStep || b == GatherPredictions
    case OptimizerStep => b == SchedulerStep
    case SchedulerStep => b == ZeroGrad
    case ZeroGrad => b == ProgressTick
    case ProgressTick => b == Prune || b == GatherPredictions
    case Prune => b == LogCurrentSparsity || b == MaskCheck
    case LogCurrentSparsity => b == MaskCheck
    case MaskCheck => b == SparsityReport || b == GatherPredictions
    case SparsityReport => b == GatherPredictions
    case GatherPredictions => b == GatherReferences
    case GatherReferences => b == AddBatch
    case AddBatch => b == LogStep || b == Forward || b == Compute
    case LogStep => b == Forward || b == Compute
    case _ => false
  }

  ghost predicate TrainWalk(t: seq<Event>)
  {
    forall i :: 0 <= i < |t| - 1 ==> TrainMove(t[i], t[i + 1])
  }

  function Last(t: seq<Event>): Event
    requires |t| > 0
  {
    t[|t| - 1]
  }

  /** A step's events: a walk from `Forward` to its metric batch or its
      progress line. */
  ghost predicate StepShaped(t: seq<Event>)
  {
    TrainWalk(t) && |t| > 0 && t[0] == Forward && (Last(t) == AddBatch || Last(t) == LogStep)
  }

  lemma WalkAppend(a: seq<Event>, b: seq<Event>)
    requires TrainWalk(a) && TrainWalk(b)
    requires |a| > 0 && |b| > 0 ==> TrainMove(Last(a), b[0])
    ensures TrainWalk(a + b)
    ensures |a| > 0 ==> (a + b)[0] == a[0]
    ensures |b| > 0 ==> Last(a + b) == Last(b)
    ensures |b| == 0 ==> a + b == a
  {
    forall i | 0 <= i < |a + b| - 1
      ensures TrainMove((a + b)[i], (a + b)[i + 1])
    {
      if i >= |a| {
        assert (a + b)[i] == b[i - |a|] && (a + b)[i + 1] == b[i + 1 - |a|];
      }
    }
    if |b| == 0 {
      assert a + b == a;
    }
  }

  lemma HeadWalk(kd: bool)
    ensures var h := [Forward] + Optional(kd, TeacherForwardNoGrad);
      TrainWalk(h) && |h| > 0 && h[0] == Forward && TrainMove(Last(h), RecordLoss)
  {
  }

  lemma GradWalk(clip: bool)
    ensures var g := GradEvents(clip);
      TrainWalk(g) && |g| > 0 && g[0] == RecordLoss && Last(g) == RecordLr
  {
  }

  lemma UpdateWalk(update: bool, hasPruner: bool, reports: bool, due: bool)
    ensures var u := UpdateGroup(update, hasPruner, reports, due);
      TrainWalk(u) && (|u| > 0 ==> u[0] == OptimizerStep && TrainMove(Last(u), GatherPredictions))
  {
    if update {
      var hooks := PrunerHooks(hasPruner, reports, due);
      if hasPruner {
        var h1 := [Prune] + Optional(reports, LogCurrentSparsity);
        var h2 := [MaskCheck] + Optional(due, SparsityReport);
        assert hooks == h1 + h2;
        WalkAppend(h1, h2);
      }
      WalkAppend([OptimizerStep, SchedulerStep, ZeroGrad, ProgressTick], hooks);
    }
  }

  /** The first half of a step: the forward passes through reading the
      learning rate. */
  lemma StepHeadWalk(kd: bool, clip: bool)
    ensures var p := StepHead(kd, clip);
      TrainWalk(p) && |p| > 0 && p[0] == Forward && Last(p) == RecordLr
  {
    HeadWalk(kd);
    GradWalk(clip);
    WalkAppend([Forward] + Optional(kd, TeacherForwardNoGrad), GradEvents(clip));
  }

  /** The second half of a step: the update group, the metric batch and the
      progress line. */
  lemma StepTailWalk(update: bool, hasPruner: bool, reports: bool, due: bool, logged: bool)
    ensures var q := StepTail(update, hasPruner, reports, due, logged);
      && TrainWalk(q) && |q| > 0 && (q[0] == OptimizerStep || q[0] == GatherPredictions)
      && (Last(q) == AddBatch || Last(q) == LogStep)
  {
    var upd := UpdateGroup(update, hasPruner, reports, due);
    UpdateWalk(update, hasPruner, reports, due);
    WalkAppend(upd, MetricEvents);
    WalkAppend(upd + MetricEvents, Optional(logged, LogStep));
  }

  lemma StepWalk<T>(cfg: Config, kd: bool, update: bool, logged: bool, x: StepInput<T>)
    ensures StepShaped(StepEvents(cfg, kd, update, logged, x))
  {
    StepHeadWalk(kd, cfg.clipGrad);
    StepTailWalk(update, cfg.hasPruner, x.pruneReports, x.maskDue, logged);
    WalkAppend(StepHead(kd, cfg.clipGrad), StepTail(update, cfg.hasPruner, x.pruneReports, x.maskDue, logged));
  }

  lemma {:induction false} FlattenWalk(steps: seq<seq<Event>>)
    requires forall s :: 0 <= s < |steps| ==> StepShaped(steps[s])
    ensures |steps| > 0 ==> StepShaped(Flatten(steps))
  {
    if |steps| > 1 {
      var pre := steps[..|steps| - 1];
      FlattenWalk(pre);
      WalkAppend(Flatten(pre), steps[|steps| - 1]);
    } else if |steps| == 1 {
      WalkAppend([], steps[0]);
    }
  }

  /** Every `b` in `t` comes right after one of `before`. */
  ghost predicate Preceded(t: seq<Event>, b: Event, before: set<Event>)
  {
    forall i :: 0 <= i < |t| && t[i] == b ==> 0 < i && t[i - 1] in before
  }

  /** Every `a` in `t` is followed at once by `b`. */
  ghost predicate Followed(t: seq<Event>, a: Event, b: Event)
  {
    forall i :: 0 <= i < |t| && t[i] == a ==> i + 1 < |t| && t[i + 1] == b
  }

  lemma WalkPreceded(t: seq<Event>, b: Event, before: set<Event>)
    requires TrainWalk(t) && |t| > 0 && t[0] != b
    requires forall a :: TrainMove(a, b) ==> a in before
    ensures Preceded(t, b, before)
  {
    forall i | 0 <= i < |t| && t[i] == b
      ensures 0 < i && t[i - 1] in before
    {
      assert TrainMove(t[i - 1], t[(i - 1) + 1]);
    }
  }

  lemma WalkFollowed(t: seq<Event>, a: Event, b: Event)
    requires TrainWalk(t) && |t| > 0 && Last(t) != a
    requires forall c :: TrainMove(a, c) ==> c == b
    ensures Followed(t, a, b)
  {
    forall i | 0 <= i < |t| && t[i] == a
      ensures i + 1 < |t| && t[i + 1] == b
    {
      assert TrainMove(t[i], t[i + 1]);
    }
  }

  /** The order of calls within an epoch: it starts in training mode and ends
      with the metric's `compute()`; the optimizer step follows the
      learning-rate read, which follows the norm measurement, and is followed
      at once by the scheduler step, zero-grad and the progress-bar tick, and
      none of those three happens anywhere else; `prune()` comes right after
      that tick, its sparsity line right after `prune()`,
      `_update_mask_conditions()` right after either, and `sparsity()` right
      after `_update_mask_conditions()`. */
  ghost predicate CallOrder(t: seq<Event>)
  {
    && |t| >= 2 && t[0] == TrainMode && Last(t) == Compute
    && Preceded(t, OptimizerStep, {RecordLr})
    && Preceded(t, RecordLr, {ClipGrad, MeasureGradNorm})
    && Followed(t, OptimizerStep, SchedulerStep)
    && Followed(t, SchedulerStep, ZeroGrad)
    && Followed(t, ZeroGrad, ProgressTick)
    && Preceded(t, SchedulerStep, {OptimizerStep})
    && Preceded(t, ZeroGrad, {SchedulerStep})
    && Preceded(t, ProgressTick, {ZeroGrad})
    && Preceded(t, Prune, {ProgressTick})
    && Preceded(t, LogCurrentSparsity, {Prune})
    && Preceded(t, MaskCheck, {Prune, LogCurrentSparsity})
    && Preceded(t, SparsityReport, {MaskCheck})
  }

  lemma WalkOrderUpdate(t: seq<Event>)
    requires TrainWalk(t) && |t| >= 2 && t[0] == TrainMode && Last(t) == Compute
    ensures Preceded(t, OptimizerStep, {RecordLr})
    ensures Preceded(t, RecordLr, {ClipGrad, MeasureGradNorm})
    ensures Followed(t, OptimizerStep, SchedulerStep)
  {
    WalkPreceded(t, OptimizerStep, {RecordLr});
    WalkPreceded(t, RecordLr, {ClipGrad, MeasureGradNorm});
    WalkFollowed(t, OptimizerStep, SchedulerStep);
  }

  lemma WalkOrderFollow(t: seq<Event>)
    requires TrainWalk(t) && |t| >= 2 && t[0] == TrainMode && Last(t) == Compute
    ensures Followed(t, SchedulerStep, ZeroGrad)
    ensures Followed(t, ZeroGrad, ProgressTick)
    ensures Preceded(t, SchedulerStep, {OptimizerStep})
  {
    WalkFollowed(t, SchedulerStep, ZeroGrad);
    WalkFollowed(t, ZeroGrad, ProgressTick);
    WalkPreceded(t, SchedulerStep, {OptimizerStep});
  }

  lemma WalkOrderTick(t: seq<Event>)
    requires TrainWalk(t) && |t| >= 2 && t[0] == TrainMode && Last(t) == Compute
    ensures Preceded(t, ZeroGrad, {SchedulerStep})
    ensures Preceded(t, ProgressTick, {ZeroGrad})
    ensures Preceded(t, Prune, {ProgressTick})
  {
    WalkPreceded(t, ZeroGrad, {SchedulerStep});
    WalkPreceded(t, ProgressTick, {ZeroGrad});
    WalkPreceded(t, Prune, {ProgressTick});
  }

  lemma WalkOrderPruner(t: seq<Event>)
    requires TrainWalk(t) && |t| >= 2 && t[0] == TrainMode && Last(t) == Compute
    ensures Preceded(t, LogCurrentSparsity, {Prune})
    ensures Preceded(t, MaskCheck, {Prune, LogCurrentSparsity})
    ensures Preceded(t, SparsityReport, {MaskCheck})
  {
    WalkPreceded(t, LogCurrentSparsity, {Prune});
    WalkPreceded(t, MaskCheck, {Prune, LogCurrentSparsity});
    WalkPreceded(t, SparsityReport, {MaskCheck});
  }

  /** Any walk from `TrainMode` to `Compute` keeps the call order. */
  lemma WalkOrder(t: seq<Event>)
    requires TrainWalk(t) && |t| >= 2 && t[0] == TrainMode && Last(t) == Compute
    ensures CallOrder(t)
  {
    WalkOrderUpdate(t);
    WalkOrderFollow(t);
    WalkOrderTick(t);
    WalkOrderPruner(t);
  }

  lemma TrainEventOrder<T>(cfg: Config, mode: LossMode<T>, xs: seq<StepInput<T>>)
    requires TrainEpoch(cfg, mode, xs).Success?
    ensures CallOrder(TrainEpoch(cfg, mode, xs).value.trace)
  {
    TrainStepShapes(cfg, mode, xs);
    TrainTrace(cfg, mode, xs);
    var r := TrainEpoch(cfg, mode, xs).value;
    forall s | 0 <= s < |xs| ensures StepShaped(r.steps[s]) {
      StepWalk(cfg, mode.Distillation?, ShouldUpdate(s, |xs|, cfg.window), ShouldLog(s, cfg.printFreq), xs[s]);
    }
    FlattenWalk(r.steps);
    var f := Flatten(r.steps);
    WalkAppend([TrainMode], f);
    WalkAppend([TrainMode] + f, [Compute]);
    WalkOrder(r.trace);
  }
}

=== FILE: wrappers.dfy ===
/** Failure-compatible wrappers shared by every module of the model: Python's
    `None` becomes `Option.None`, and an exception raised by the Python code becomes
    a `Result.Failure` carrying what went wrong. */
module Wrappers {

  datatype Option<+T> = None | Some(value: T)

  datatype Result<+R, +E> = Success(value: R) | Failure(error: E)
}
